=== FILE: README.md ===
# MessMate core, modelled in Dafny

MessMate is a hostel mess app. Students mark which meals they will attend
before each meal's cutoff. An admin manages the weekly menu, invites
students and reviews feedback. At each cutoff the kitchen is emailed that
meal's headcount. This project models the part of the backend and admin
screens that holds logic, with the database, mailer, timers and randomness
replaced by values passed in:

- **Clock** (`clock.dfy`). An instant is a whole number of milliseconds on one
  fixed local wall clock. It covers the meal cutoff tables, the inclusive
  `canMarkMeal` gate, the weekday and the Monday of the current week.
- **LocalDate** (`local_date.dfy`, `decimal.dfy`). `getLocalDateString`'s
  `YYYY-MM-DD` key, with a reader that gets the date back out. This proves the
  key identifies the date.
- **Attendance** (`attendance.dfy`). The `attendance` table as a map from
  (user, day) to three 0/1 flags. It covers `getTodayAttendance`,
  `markAttendance` and `getWeeklyAttendance`.
- **Kitchen** (`kitchen.dfy`). The admin controller's daily cycle:
  - `sendMealEmail`, with its headcount rule and its one-way sent flag
  - `getEmailSentStatus` and `getTodayPresentStudents`
  - the first-delay rule of `scheduleMealEmails`
- **Admin** (`admin.dfy`, `accounts.dfy`). `generatePassword`, `inviteStudent`,
  `createAnnouncement`, `getMenuByDay` and `updateMenuItems`.
- **Auth** (`auth.dfy`). The in-memory one-time-code store, with
  `generateOtp`, `verifyEmail`, `verifyOtp` and `signup`.
- **WeeklyMenu** (`weekly_menu.dfy`). `getWeeklyMenu`'s grouping of rows by day
  and then by meal.
- **MenuEditor** and **FeedbackScreen** (`menu_editor.dfy`,
  `feedback_screen.dfy`). The admin screens' `toggleSelection` checkbox update
  and the optimistic `markAsReviewed` update.

The two cutoff tables in the source differ on dinner. Student marking closes
dinner at 20:00. The kitchen scheduler fires it at 22:00. The model therefore
takes the table as a parameter. It defines both (`Clock.StudentMealTimes`,
`Clock.KitchenMealTimes`) and proves where they differ.

Four facts about the code shape the model:
- `markAttendance` (Backend/controllers/dashboardController.js:62-83) records
  no expense entry. Marking a meal again reports success and changes nothing.
- `sendMealEmail` (Backend/controllers/adminController.js:248-276) never reads
  the sent flag before sending (`Kitchen.SendHasNoReadGuard`).
- The kitchen mail helper (Backend/utils/mailer.js:132-134) swallows its own
  errors. So after a send the flag is set, even when the mail failed.
- The backend has no "next meal" operation. The student dashboard's
  `getNextMeal` (Frontend/app/(dashboard)/index.tsx:101-113, strict `<`) is
  UI and is left out.

The invitation inserts the user row before the allowed-list row, and no
handler deletes users. So every email on the allowed list has a user row
(`Accounts.AllowedHaveUsers`, kept by every account handler). Sign-up inserts
a user row for a verified allowed email, and the unique email refuses it. A
student invited through the admin screen therefore can never complete
sign-up (`Auth.InvitedStudentSignupRefused`). Sign-up succeeds only for an
allowed row added outside these handlers.

The attendance and email-status tables are keyed by the date string. The
model keys them by a day number. That the day number and the date string
determine each other is an assumption of the model. Only the formatter's half
is proved: `LocalDate.LocalDateStringInjective` shows that distinct calendar
dates get distinct strings.

## Model

| member | source | states |
|---|---|---|
| Common.ParseMeal | Backend/controllers/dashboardController.js:54-56 | a meal name is accepted exactly when it is "breakfast", "lunch" or "dinner", and the accepted meal's column name is the text given |
| Clock.CanMarkMeal | Backend/controllers/dashboardController.js:10-16 | marking is allowed exactly when the time of day of `now` is at or before the meal's cutoff (hours and minutes, seconds and ms zero) |
| Clock.Deadline | Backend/controllers/dashboardController.js:12-14 | the deadline is on the same local day as `now`, at the cutoff time, on a whole minute |
| Clock.CutoffIsInclusive | Backend/controllers/dashboardController.js:15 | the cutoff instant itself may still mark; one millisecond later may not |
| Clock.TablesAgreeExceptDinner | Backend/controllers/adminController.js:229-233 | the scheduler's table matches the student table (08:00, 13:15) except that dinner is 22:00 instead of 20:00 |
| Clock.Weekday | Backend/controllers/dashboardController.js:96 | `getDay()` of a day number: a value 0..6 that advances by one each day, with day 0 (1970-01-01) a Thursday |
| Clock.MondayOf | Backend/controllers/dashboardController.js:96-98 | the week start is a Monday, at most six days before the given day; a Sunday goes back six days |
| Decimal.ToDecimalRoundTrip | Backend/controllers/dashboardController.js:19-21 | reading back the decimal text `String(n)` of a number gives the number |
| Decimal.TwoDigits | Backend/controllers/dashboardController.js:20-21 | `padStart(2, "0")` of a number below 100 is two digits with the same value |
| LocalDate.LocalDateString | Backend/controllers/dashboardController.js:18-23 | the key is the unpadded year, a dash, the 1-based month in two digits, a dash, the day in two digits |
| LocalDate.LocalDateRoundTrip | Backend/controllers/dashboardController.js:18-23 | parsing the key gives back the date it was made from |
| LocalDate.LocalDateStringInjective | Backend/controllers/dashboardController.js:18-23 | two dates with the same key are the same date |
| Attendance.TodayAttendance | Backend/controllers/dashboardController.js:27-41 | the caller's stored row for today, or all three flags 0 when there is none |
| Attendance.MarkAttendance | Backend/controllers/dashboardController.js:49-83 | an unknown meal gives 400 and changes nothing, whatever the clock; after the cutoff it gives "closed" and changes nothing; otherwise the caller's row for today exists afterwards with that meal at 1 |
| Attendance.MarkChangesOnlyOneFlag | Backend/controllers/dashboardController.js:63-81 | a successful mark leaves the row's other two flags as they were (0 on a new row) and every other row untouched |
| Attendance.MarkIsMonotone | Backend/controllers/dashboardController.js:69-81 | no row disappears and no flag goes from 1 back to 0 |
| Attendance.MarkTwiceSameDay | Backend/controllers/dashboardController.js:69-81 | marking the same meal again later the same day leaves the table exactly as the first call left it |
| Attendance.MarkThenRead | Backend/controllers/dashboardController.js:27-81 | after a successful mark, today's attendance read shows that meal as 1 |
| Attendance.WeeklyAttendance | Backend/controllers/dashboardController.js:91-126 | exactly seven values, Monday first; each is that day's breakfast+lunch+dinner (0 to 3), 0 for a missing day; today's slot is today's total |
| Kitchen.Headcount | Backend/controllers/adminController.js:252-260 | the headcount is positive exactly when some row of that day has the meal's flag at 1, and never exceeds the number of rows |
| Kitchen.SendMealEmail | Backend/controllers/adminController.js:248-280 | headcount 0: no notice and no status write; otherwise one notice to the kitchen carrying the headcount, and only that meal's sent flag for today is set to 1, other days untouched |
| Kitchen.SendIsMonotone | Backend/controllers/adminController.js:267-273 | sent flags are never reset to 0 |
| Kitchen.SendHasNoReadGuard | Backend/controllers/adminController.js:248-276 | a second run on the same day sends the same notice again and leaves the flags as they were |
| Kitchen.MarkedStudentIsCounted | Backend/controllers/adminController.js:252-262 | a student who marked a meal before its cutoff is in that day's present set, so the headcount is positive |
| Kitchen.EmailSentStatus | Backend/controllers/adminController.js:202-219 | all false with no row for today; otherwise each meal is true exactly when its column is 1 |
| Kitchen.SentStatusAfterSend | Backend/controllers/adminController.js:211-219 | after a notice is sent the status read reports that meal as sent, and no meal turns back to unsent |
| Kitchen.TodayPresentStudents | Backend/controllers/adminController.js:190-194 | each meal's list holds only rows of the query with that flag at 1, and holds every such row |
| Kitchen.TodayPresentStudentsKeepsOrder | Backend/controllers/adminController.js:190-192 | each list keeps query order: the list of a concatenation is the concatenation of the lists |
| Kitchen.ScheduleMealEmails | Backend/controllers/adminController.js:284-296 | a meal gets a timer exactly when its cutoff today has not passed, with delay = cutoff instant − now ≥ 0 |
| Kitchen.ScheduledIffMarkable | Backend/controllers/adminController.js:291-296 | with the same table, a meal is scheduled exactly when it can still be marked |
| Kitchen.FiringsFallOnCutoff | Backend/controllers/adminController.js:298-302 | the k-th firing (first delay plus k times 24 h) is at the meal's cutoff time, k days later |
| Admin.AlphabetIsAlnum | Backend/controllers/adminController.js:7 | the alphabet is 62 distinct characters, exactly the ASCII letters and digits |
| Admin.GeneratePassword | Backend/controllers/adminController.js:6-9 | the password has exactly the requested length, every character a letter or digit |
| Admin.EveryPasswordReachable | Backend/controllers/adminController.js:6-9 | every alphanumeric text of a given length is produced by some sequence of random draws |
| Admin.InviteStudent | Backend/controllers/adminController.js:12-43 | missing name or email: 400, nothing changes; email already a user: 409, nothing changes; email only on the allowed list: 409 after the user row was inserted; otherwise both rows are inserted (unregistered) and an invitation with an 8-character alphanumeric password is mailed |
| Admin.InviteKeepsAllowedHaveUsers | Backend/controllers/adminController.js:21-31 | an invitation keeps every allowed email backed by a user row, and whenever both fields are given the email ends with a user row |
| Admin.CreateAnnouncement | Backend/controllers/adminController.js:59-71 | missing title or content: 400 and no change; otherwise the new announcement with the next id is appended and returned |
| Admin.HasFood | Backend/controllers/adminController.js:126 | a null food id (a menu without items) is skipped, and a kept row's entry carries its food id, which is non-zero |
| Admin.GetMenuByDay | Backend/controllers/adminController.js:123-134 | each meal's list is the rows of that meal with a truthy food id, converted to entries, in row order |
| Admin.MenuPartitionsRows | Backend/controllers/adminController.js:125-134 | the three lists together hold exactly as many entries as there are rows with a food id |
| Admin.ValidFoodIds | Backend/controllers/adminController.js:154 | exactly the entries sent as numbers survive, one id per surviving entry, in the order sent |
| Admin.UpdateMenuItems | Backend/controllers/adminController.js:149-163 | missing menu id or non-array `foodIds`: 400 and no change; otherwise the menu's items are exactly the valid ids, one row per surviving entry in the order sent, and all other menus are untouched |
| Admin.UpdateMenuItemsReplaces | Backend/controllers/adminController.js:153-161 | the items afterwards do not depend on the earlier items, and saving twice equals saving once |
| Auth.GenerateOtp | Backend/controllers/authController.js:9 | the code is four decimal digits whose value lies in 1000..9999 |
| Auth.EveryOtpReachable | Backend/controllers/authController.js:9 | every value 1000..9999 is issued for some random draw |
| Auth.IssueOtp | Backend/controllers/authController.js:38-42 | the email's entry is replaced by a fresh code expiring 300000 ms after now; other entries are untouched |
| Auth.VerifyEmailAsWritten | Backend/controllers/authController.js:20-51 | as written: missing email gives 400 and an email not allowed gives 403, both with no change; an allowed email gets the same store update as the corrected handler but a 500 reply, and no code mail is ever produced |
| Auth.VerifyEmailAsWrittenFailsAfterStoring | Backend/controllers/authController.js:38-50 | as written, an allowed email gets status 500 and no mail, although its code was stored exactly as in the corrected handler |
| Auth.VerifyEmail | Backend/controllers/authController.js:20-47 | missing email: 400, no change; email not allowed: 403, store unchanged; otherwise the email maps to a fresh code expiring in five minutes, that code is mailed, other entries are untouched; codes stay limited to allowed emails |
| Auth.VerifyOtp | Backend/controllers/authController.js:59-86 | no entry or wrong code: "Invalid OTP", no change; right code after expiry: "OTP expired" and the entry is deleted; right code at or before expiry: success, the entry is deleted and the email marked registered |
| Auth.OtpIsSingleUse | Backend/controllers/authController.js:78-79 | once a code is accepted, the same code for the same email is refused as invalid at any later time |
| Auth.IssuedCodeWindow | Backend/controllers/authController.js:38-79 | an issued code is accepted up to and including five minutes later, refused as expired after that, and gone either way |
| Auth.Signup | Backend/controllers/authController.js:98-129 | missing fields: 400; email not registered: 403; email already a user: 400; in all these no user is inserted; otherwise exactly that user is inserted |
| Auth.SignupFlowSucceeds | Backend/controllers/authController.js:20-125 | with the corrected `VerifyEmail` (the handler as written mails no code), for an allowed email that is not yet a user, issuing a code, entering it in time and signing up succeeds; no handler here produces that starting state, which needs an `allowed_students` row added outside them |
| Auth.InvitedStudentCannotSignUp | Backend/controllers/authController.js:119-129 | an email that already has a user row can never sign up; once verified it gets "Email already exists" |
| Auth.InvitedStudentSignupRefused | Backend/controllers/adminController.js:12-31 | after an admin invitation the student's sign-up never succeeds; once the email is verified it is refused with "Email already exists" |
| Auth.AllowedHaveUsersBlocksSignup | Backend/controllers/authController.js:106-125 | while every allowed email has a user row, no sign-up succeeds and none changes the tables |
| Auth.HandlersKeepAllowedHaveUsers | Backend/controllers/authController.js:20-125 | issuing a code (either version), checking it and signing up all keep every allowed email backed by a user row |
| WeeklyMenu.AddRow | Backend/controllers/menuController.js:59-66 | one row adds its day as a key (starting with three empty lists) and appends its item at the end of its meal's list; every other list and day is unchanged |
| WeeklyMenu.ItemOf | Backend/controllers/menuController.js:62-66 | an item's image URL is null exactly when the row's is null or empty, and otherwise copied |
| WeeklyMenu.GetWeeklyMenu | Backend/controllers/menuController.js:56-67 | a day is a key exactly when some row has it; each of its three lists (initially empty) holds that day's rows of that meal, in row order |
| WeeklyMenu.WeeklyMenuCountsEveryRow | Backend/controllers/menuController.js:58-67 | the menu holds exactly as many items as there were rows |
| MenuEditor.ToggleList | Frontend/app/A/ad/m.tsx:31-33 | membership of the id flips; every other id keeps its membership and its count; the id ends up with 0 copies if it was present and 1 if it was absent; an absent id is appended at the end |
| MenuEditor.ToggleSelection | Frontend/app/A/ad/m.tsx:26-35 | only the chosen meal's list changes |
| MenuEditor.ToggleTwiceRestores | Frontend/app/A/ad/m.tsx:31-33 | toggling an absent id twice restores the list |
| MenuEditor.ToggleOffKeepsOrder | Frontend/app/A/ad/m.tsx:32 | removal keeps the relative order of the remaining ids |
| MenuEditor.ToggleNeverDuplicates | Frontend/app/A/ad/m.tsx:31-33 | the toggled id is never present twice afterwards |
| MenuEditor.ToggleAsWritten | Frontend/app/A/ad/m.tsx:31-33 | on a fetched list, the toggle flips only the ticked copy of the id; fetched entries are never found, added or removed |
| MenuEditor.IsCheckedAsWritten | Frontend/app/A/ad/m.tsx:62 | a list holding only fetched entries shows no item ticked |
| MenuEditor.AsPosted | Frontend/app/A/ad/m.tsx:38-40 | the posted list has one value per element; ticked ids are posted as numbers and fetched entries as values the server's filter drops |
| MenuEditor.SaveTargetAsWritten | Frontend/app/A/ad/m.tsx:71 | the save goes to the first element's menu id when that is a fetched entry with a non-zero id, and to menu 1 when the list is empty or starts with a ticked id |
| MenuEditor.ToggleAsWrittenLosesLoadedItems | Frontend/app/A/ad/m.tsx:17-43 | as written, a fetched item shows unticked, clicking it adds a duplicate, and a later save to the fetched menu keeps only hand-ticked ids; a meal fetched empty saves to menu 1 |
| MenuEditor.LoadSelection | Frontend/app/A/ad/m.tsx:20 | the intended selection holds the fetched entries' food ids, one per entry, in order, and the menu id they came with (none for an empty meal) |
| MenuEditor.SaveTarget | Frontend/app/A/ad/m.tsx:71 | the intended save goes to the known non-zero menu id, and to menu 1 when no menu id is known |
| MenuEditor.Save | Frontend/app/A/ad/m.tsx:38-40 | saving a selection makes its menu's items exactly the selected ids, in order, and leaves every other menu unchanged |
| MenuEditor.ToggleLoadedThenSave | Frontend/app/A/ad/m.tsx:26-43 | with ids, unticking a fetched item removes it; ticking a new item and saving writes every fetched id followed by the new one to the menu the entries came from |
| FeedbackScreen.MarkAsReviewed | Frontend/app/A/ad/f.tsx:102-104 | same length and order; items with the id become "Reviewed" with all other fields kept; items with any other id are unchanged |
| FeedbackScreen.MarkAsReviewedIdempotent | Frontend/app/A/ad/f.tsx:102-104 | applying the update twice with the same id equals applying it once |
| FeedbackScreen.MarkAsReviewedAddsOnlyId | Frontend/app/A/ad/f.tsx:103 | the set of reviewed ids grows by the id, if the list holds it, and by nothing else |

## Findings

| source | as written | input that shows it | evidently intended | confidence | as-written member | corrected member |
|---|---|---|---|---|---|---|
| Backend/controllers/authController.js:4 | `require("../utils/mailer")` yields the module's export object, which holds three functions. Line 45 calls that object as a function. It throws after line 42 has stored the code, so the handler answers 500 and no code mail is sent. | any email on the allowed list | import the `sendOtpEmail` function, so the code is mailed and the reply is success | high; not executed | Auth.VerifyEmailAsWritten, Auth.VerifyEmailAsWrittenFailsAfterStoring | Auth.VerifyEmail, Auth.IssuedCodeWindow, Auth.SignupFlowSucceeds |
| Frontend/app/A/ad/m.tsx:31-33 | The lists fetched at line 20 hold entry objects, but `includes` and `!==` compare them with a numeric id. A fetched item shows unticked, and clicking it appends its id. On save, the server's `isNaN` filter drops every object, so only hand-ticked ids remain. | breakfast fetched as [{food_id: 3, menu_id: 7, …}]; tick food 5; save | hold food ids in the selection, together with the menu id the entries came with, so a fetched item can be unticked and saving keeps it in the same menu | high; not executed | MenuEditor.ToggleAsWritten, MenuEditor.ToggleAsWrittenLosesLoadedItems | MenuEditor.ToggleList, MenuEditor.Save, MenuEditor.ToggleLoadedThenSave |

## Left out

- SQL and the connection pool. Tables are maps or sequences of rows. A
  query's row order is taken as the input order, and `ORDER BY` is not
  modelled. A database error, and the 500 reply that follows it, is not
  modelled.
- Columns the handlers do not write. Neither the attendance nor the email
  status schema is part of this model. A fresh row is taken to start with its
  other flags at 0.
- The join with `users` in the headcount and present-student queries. Every
  attendance row is taken to belong to an existing user.
- Mail delivery. Invitation, code and kitchen mails are produced as values.
  The kitchen address is a parameter. The kitchen mail helper swallows its own
  errors, so it never fails. A failing invitation mail, which would turn an
  invitation into a 500 after both inserts, is not modelled.
- Auth.VerifyEmail: the code mail always succeeds. The code mail helper
  rethrows a delivery error (Backend/utils/mailer.js:55-57). The corrected
  handler would then answer 500 after storing the code, and that reply is not
  modelled.
- Password hashing, JWT issue, `login` and `profile`. These are library calls
  with no logic of their own here.
- Randomness. `Math.random()` values are parameters in [0, 1).
- Real timers. `ScheduleMealEmails` gives the first delays, and
  `FiringsFallOnCutoff` the later firing instants. Three things are ignored:
  - the time `sendMealEmail` takes before the 24-hour re-arm
  - daylight-saving shifts
  - the separate `new Date()` calls inside one handler (one `now` is used)
- Timezones. `getWeeklyAttendance` builds its query range with UTC
  `toISOString`, but it matches rows by local date. The model uses one local
  clock, so a row the UTC range would miss near midnight still counts here.
- Year formatting. Years are natural numbers. The form `String` gives a
  negative year is not modelled.
- Request values of the wrong JSON type. Text fields are `Option<string>`, and
  a field is missing exactly when it is absent, null or empty. A code sent as
  a number rather than text is not modelled. In `foodIds`, `undefined`, `null`
  and any value `isNaN` rejects (objects, non-numeric text) are modelled as
  `Null` or `NotANumber`. Values `isNaN` accepts that are not numbers are not
  modelled: `""`, `true`, `[]` and numeric text such as `"12"` pass the filter
  at Backend/controllers/adminController.js:154 and are inserted.
- A `meal_type` outside the three meals. The `meals` table is taken to hold
  only those three.
- `Promise.all` inserts. Their completion order does not matter to the table.
  The model keeps the posted order.
- Other handlers in these files: `getTodayMeal`, `getAnnouncements`,
  `updateAnnouncement` and `deleteAnnouncement` (plain queries), and the rest
  of `m.tsx` and `f.tsx` (rendering and network calls).
- Admin.UpdateMenuItems: menu ids are taken to be canonical decimal text, the
  only form the menu screen posts (the fetched `menu_id`, or 1). The database
  converts the URL text to the integer `menu_id` column, so "07" would
  replace menu 7's items. The model keys menus by the text and would instead
  create a separate menu "07".
- Email matching. Emails are compared as exact strings (`in db.allowed`,
  `in db.users`). The database compares them under the column's collation,
  which in MySQL is case-insensitive by default. So an invited
  "alice@x.com" who types "Alice@x.com" passes the allowed-list query, but
  `Auth.VerifyEmail` answers 403.
- Unique emails. `users.email` and `allowed_students.email` are taken to be
  unique keys. The two 409 replies of `Admin.InviteStudent` and the
  "Email already exists" reply of `Auth.Signup` rest on that. The schema is
  not part of this model.
- Concurrency. Each handler is one atomic step. `markAttendance` in fact
  reads the row and then inserts or updates it in separate queries
  (Backend/controllers/dashboardController.js:64-81). Two concurrent first
  marks by one user on one day could therefore both try to insert.
- MenuEditor.SaveTarget: a meal fetched with no items has no menu id in the
  response, because `getMenuByDay` skips rows without a food id. Both the screen
  as written and the corrected model then save to menu 1.
- Admin.InviteStudent: the password hash stored in `users` is not modelled.
  Only the plain password in the invitation mail is.

=== FILE: accounts.dfy ===
/** The two account tables the invitation and sign-up handlers share. */
module Accounts {

  /** `users` keyed by its unique email (the value is the full name; password
      hashes are not modelled) and `allowed_students` keyed by email with its
      `is_registered` column. */
  datatype Db = Db(users: map<string, string>, allowed: map<string, bool>)

  /** Every email on the allowed list already has a user row: the invitation
      inserts the user before the allowed row, and no handler deletes users. */
  predicate AllowedHaveUsers(db: Db)
  {
    forall e :: e in db.allowed ==> e in db.users
  }
}

=== FILE: admin.dfy ===
/** The admin controller's request handlers: student invitations with a
    generated password, announcements, and the menu editor's read and write. */
module Admin {
  import opened Common
  import opened Accounts

  predicate IsAlnum(c: char)
  {
    'A' <= c <= 'Z' || 'a' <= c <= 'z' || '0' <= c <= '9'
  }

  /** `n` consecutive characters starting at `start`. */
  function CharRange(start: char, n: nat): (s: string)
    requires start as int + n < 0xD800
    ensures |s| == n
    ensures forall i :: 0 <= i < n ==> s[i] == (start as int + i) as char
  {
    seq(n, i requires 0 <= i < n => (start as int + i) as char)
  }

  /** The password alphabet: upper-case letters, lower-case letters, digits. */
  const Alphabet: string := CharRange('A', 26) + CharRange('a', 26) + CharRange('0', 10)

  /** The alphabet is 62 distinct characters, exactly the ASCII letters and digits. */
  lemma AlphabetIsAlnum(c: char)
    ensures |Alphabet| == 62
    ensures forall i, j :: 0 <= i < j < |Alphabet| ==> Alphabet[i] != Alphabet[j]
    ensures c in Alphabet <==> IsAlnum(c)
  {
    if 'A' <= c <= 'Z' {
      assert Alphabet[c as int - 'A' as int] == c;
    } else if 'a' <= c <= 'z' {
      assert Alphabet[26 + c as int - 'a' as int] == c;
    } else if '0' <= c <= '9' {
      assert Alphabet[52 + c as int - '0' as int] == c;
    }
  }

  /** The position of an alphabet character. */
  function AlphabetIndex(c: char): (i: nat)
    requires IsAlnum(c)
    ensures i < |Alphabet| && Alphabet[i] == c
  {
    if 'A' <= c <= 'Z' then c as int - 'A' as int
    else if 'a' <= c <= 'z' then 26 + c as int - 'a' as int
    else 52 + c as int - '0' as int
  }

  /** Values `Math.random()` can return. */
  predicate ValidDraws(draws: seq<real>)
  {
    forall i :: 0 <= i < |draws| ==> 0.0 <= draws[i] < 1.0
  }

  /** One password character: the draw scaled to the alphabet's length and
      rounded down picks a position in the alphabet. */
  function PickChar(draw: real): (c: char)
    requires 0.0 <= draw < 1.0
    ensures c in Alphabet
  {
    var i := (draw * 62.0).Floor;
    assert 0 <= i < 62;
    Alphabet[i]
  }

  const DefaultPasswordLength: nat := 8

  /** `generatePassword(length)`: one alphabet character per random draw. */
  function GeneratePassword(length: nat, draws: seq<real>): (pw: string)
    requires |draws| == length && ValidDraws(draws)
    ensures |pw| == length
    ensures forall i :: 0 <= i < |pw| ==> IsAlnum(pw[i])
  {
    var pw := seq(length, i requires 0 <= i < length => PickChar(draws[i]));
    forall i | 0 <= i < |pw| ensures IsAlnum(pw[i]) {
      AlphabetIsAlnum(pw[i]);
    }
    pw
  }

  /** Every alphanumeric text is the password some sequence of draws yields. */
  lemma EveryPasswordReachable(pw: string)
    requires forall i :: 0 <= i < |pw| ==> IsAlnum(pw[i])
    ensures exists draws :: |draws| == |pw| && ValidDraws(draws) && GeneratePassword(|pw|, draws) == pw
  {
    var draws := seq(|pw|, i requires 0 <= i < |pw| => AlphabetIndex(pw[i]) as real / 62.0);
    forall i | 0 <= i < |pw|
      ensures PickChar(draws[i]) == pw[i]
    {
      assert (draws[i] * 62.0).Floor == AlphabetIndex(pw[i]);
    }
    assert GeneratePassword(|pw|, draws) == pw;
  }

  /** Replies of `inviteStudent`. */
  datatype InviteReply = MissingFields | AlreadyExists | Invited
  {
    function Status(): nat
    {
      match this
      case MissingFields => 400
      case AlreadyExists => 409
      case Invited => 200
    }
  }

  /** The invitation mail: the recipient, who is also the login email, the
      student's name and the plain password. */
  datatype Invitation = Invitation(to: string, fullName: string, password: string)

  datatype InviteOutcome = InviteOutcome(reply: InviteReply, db: Db, mail: Option<Invitation>)

  /** `inviteStudent`: both fields required; then a user row and an
      unregistered `allowed_students` row are inserted, one after the other
      and outside a transaction, and the invitation is mailed. A duplicate
      email in either table is reported as 409. */
  function InviteStudent(db: Db, fullName: Option<string>, email: Option<string>, draws: seq<real>): (r: InviteOutcome)
    requires |draws| == DefaultPasswordLength && ValidDraws(draws)
    ensures !Present(fullName) || !Present(email) ==> r == InviteOutcome(MissingFields, db, None)
    ensures Present(fullName) && Present(email) && email.value in db.users ==>
              r == InviteOutcome(AlreadyExists, db, None)
    ensures Present(fullName) && Present(email) && email.value !in db.users && email.value in db.allowed ==>
              r == InviteOutcome(AlreadyExists, db.(users := db.users[email.value := fullName.value]), None)
    ensures r.reply == Invited <==>
              Present(fullName) && Present(email) && email.value !in db.users && email.value !in db.allowed
    ensures r.reply == Invited ==>
              && r.db.users == db.users[email.value := fullName.value]
              && r.db.allowed == db.allowed[email.value := false]
              && r.mail.Some? && r.mail.value.to == email.value && r.mail.value.fullName == fullName.value
              && |r.mail.value.password| == DefaultPasswordLength
              && (forall i :: 0 <= i < DefaultPasswordLength ==> IsAlnum(r.mail.value.password[i]))
  {
    if !Present(fullName) || !Present(email) then InviteOutcome(MissingFields, db, None)
    else
      var name, address := fullName.value, email.value;
      var password := GeneratePassword(DefaultPasswordLength, draws);
      if address in db.users then InviteOutcome(AlreadyExists, db, None)
      else
        var withUser := db.(users := db.users[address := name]);
        if address in db.allowed then InviteOutcome(AlreadyExists, withUser, None)
        else InviteOutcome(Invited, withUser.(allowed := db.allowed[address := false]),
                           Some(Invitation(address, name, password)))
  }

  /** An invitation keeps every allowed email backed by a user row, and
      whatever it replies once both fields are given, the email ends with a
      user row (inserted now or there before). */
  lemma InviteKeepsAllowedHaveUsers(db: Db, fullName: Option<string>, email: Option<string>, draws: seq<real>)
    requires |draws| == DefaultPasswordLength && ValidDraws(draws)
    ensures var r := InviteStudent(db, fullName, email, draws);
      && (AllowedHaveUsers(db) ==> AllowedHaveUsers(r.db))
      && (r.reply != MissingFields ==> email.value in r.db.users)
  {
  }

  datatype Announcement = Announcement(id: nat, title: string, content: string, createdAt: int)

  datatype AnnouncementReply = MissingTitleOrContent | Created(announcement: Announcement)
  {
    function Status(): nat
    {
      match this
      case MissingTitleOrContent => 400
      case Created(_) => 200
    }
  }

  /** `createAnnouncement`: title and content required; the new row gets
      the next insert id and the current time. */
  function CreateAnnouncement(anns: seq<Announcement>, nextId: nat, now: int,
                              title: Option<string>, content: Option<string>): (r: (AnnouncementReply, seq<Announcement>))
    ensures !Present(title) || !Present(content) ==> r == (MissingTitleOrContent, anns)
    ensures Present(title) && Present(content) ==>
              && r.0 == Created(Announcement(nextId, title.value, content.value, now))
              && |r.1| == |anns| + 1 && r.1[..|anns|] == anns && r.1[|anns|] == r.0.announcement
  {
    if !Present(title) || !Present(content) then (MissingTitleOrContent, anns)
    else
      var a := Announcement(nextId, title.value, content.value, now);
      assert (anns + [a])[..|anns|] == anns;
      (Created(a), anns + [a])
  }

  /** One row of the menu-by-day query; the LEFT JOINs leave the food
      columns null for a menu without items. */
  datatype MenuRow = MenuRow(menuId: nat, mealType: Meal, foodId: Option<int>, name: Option<string>, price: Option<int>)

  datatype MenuEntry = MenuEntry(foodId: int, name: Option<string>, price: Option<int>, menuId: nat)

  /** Whether a row carries a food item: its food id must be truthy, so a
      null id (a menu without items) and the id 0 are both skipped. */
  function HasFood(row: MenuRow): (b: bool)
    ensures row.foodId.None? ==> !b
    ensures b ==> EntryOf(row).foodId == row.foodId.value && EntryOf(row).foodId != 0
  {
    match row.foodId
    case None => false
    case Some(id) => id != 0
  }

  function KeptFor(m: Meal): MenuRow -> bool
  {
    (row: MenuRow) => HasFood(row) && row.mealType == m
  }

  function EntryOf(row: MenuRow): MenuEntry
  {
    MenuEntry(if row.foodId.Some? then row.foodId.value else 0, row.name, row.price, row.menuId)
  }

  /** `getMenuByDay`: rows with a food id, each appended to its meal's list. */
  method GetMenuByDay(rows: seq<MenuRow>) returns (menu: MealBuckets<MenuEntry>)
    ensures forall m :: menu.Get(m) == MapSeq(EntryOf, Filter(KeptFor(m), rows))
  {
    menu := EmptyBuckets();
    var i := 0;
    while i < |rows|
      invariant 0 <= i <= |rows|
      invariant forall m :: menu.Get(m) == MapSeq(EntryOf, Filter(KeptFor(m), rows[..i]))
    {
      var row := rows[i];
      assert rows[..i + 1] == rows[..i] + [row];
      forall m ensures Filter(KeptFor(m), rows[..i + 1]) == Filter(KeptFor(m), rows[..i]) + (if KeptFor(m)(row) then [row] else []) {
        FilterSnoc(KeptFor(m), rows[..i], row);
      }
      if HasFood(row) {
        MapSeqAppend(EntryOf, Filter(KeptFor(row.mealType), rows[..i]), [row]);
        menu := menu.Append(row.mealType, EntryOf(row));
      }
      i := i + 1;
    }
    assert rows[..i] == rows;
  }

  /** Every row with a food id lands in exactly one meal list: the three
      lists together hold as many entries as there are such rows. */
  lemma {:induction false} MenuPartitionsRows(rows: seq<MenuRow>)
    ensures |Filter(KeptFor(Breakfast), rows)| + |Filter(KeptFor(Lunch), rows)| + |Filter(KeptFor(Dinner), rows)|
            == |Filter(HasFood, rows)|
    decreases |rows|
  {
    if rows != [] {
      MenuPartitionsRows(rows[1..]);
    }
  }

  /** Entries of a food-id list sent by the menu editor: `null`/`undefined`,
      anything `isNaN` rejects, or a number. */
  datatype FoodIdValue = Null | NotANumber | Number(id: int)

  predicate IsValidId(v: FoodIdValue)
  {
    v.Number?
  }

  /** The ids the handler inserts: null and non-numeric entries are
      dropped, numbers are kept, one per entry and in the order sent. */
  function ValidFoodIds(foodIds: seq<FoodIdValue>): (ids: seq<int>)
    ensures |ids| <= |foodIds|
    ensures |ids| == |Filter(IsValidId, foodIds)|
    ensures forall i :: 0 <= i < |ids| ==> Number(ids[i]) == Filter(IsValidId, foodIds)[i]
    ensures forall x :: x in ids <==> Number(x) in foodIds
  {
    var kept := Filter(IsValidId, foodIds);
    FilterMembers(IsValidId, foodIds);
    var ids := MapSeq((v: FoodIdValue) => if v.Number? then v.id else 0, kept);
    assert forall x :: Number(x) in foodIds ==> x in ids by {
      forall x | Number(x) in foodIds ensures x in ids {
        var i :| 0 <= i < |foodIds| && foodIds[i] == Number(x);
        var j :| 0 <= j < |kept| && kept[j] == Number(x);
        assert ids[j] == x;
      }
    }
    ids
  }

  datatype UpdateReply = InvalidMenuOrFoodIds | Saved
  {
    function Status(): nat
    {
      match this
      case InvalidMenuOrFoodIds => 400
      case Saved => 200
    }
  }

  /** `menu_items` as each menu's list of food ids. */
  type MenuItems = map<string, seq<int>>

  /** `updateMenuItems`: a missing menu id or a body whose `foodIds` is not
      an array is refused; otherwise the menu's items are deleted and the
      valid ids inserted in their place. */
  function UpdateMenuItems(items: MenuItems, menuId: string, foodIds: Option<seq<FoodIdValue>>): (r: (UpdateReply, MenuItems))
    ensures menuId == "" || foodIds.None? ==> r == (InvalidMenuOrFoodIds, items)
    ensures menuId != "" && foodIds.Some? ==>
              && r.0 == Saved
              && menuId in r.1
              && |r.1[menuId]| == |Filter(IsValidId, foodIds.value)|
              && (forall i :: 0 <= i < |r.1[menuId]| ==> Number(r.1[menuId][i]) == Filter(IsValidId, foodIds.value)[i])
              && (forall x :: x in r.1[menuId] <==> Number(x) in foodIds.value)
              && r.1.Keys == items.Keys + {menuId}
              && (forall k :: k in items && k != menuId ==> r.1[k] == items[k])
  {
    if menuId == "" || foodIds.None? then (InvalidMenuOrFoodIds, items)
    else (Saved, items[menuId := ValidFoodIds(foodIds.value)])
  }

  /** Saving replaces rather than merges: the earlier items of the menu have
      no influence on its items afterwards, and saving twice is saving once. */
  lemma UpdateMenuItemsReplaces(a: MenuItems, b: MenuItems, menuId: string, foodIds: seq<FoodIdValue>)
    requires menuId != ""
    ensures UpdateMenuItems(a, menuId, Some(foodIds)).1[menuId] == UpdateMenuItems(b, menuId, Some(foodIds)).1[menuId]
    ensures UpdateMenuItems(UpdateMenuItems(a, menuId, Some(foodIds)).1, menuId, Some(foodIds)) ==
            UpdateMenuItems(a, menuId, Some(foodIds))
  {
    var once := a[menuId := ValidFoodIds(foodIds)];
    assert once[menuId := ValidFoodIds(foodIds)] == once;
  }
}

=== FILE: attendance.dfy ===
/** The student attendance handlers: today's flags, marking a meal before
    its cutoff, and the Monday-to-Sunday weekly totals.

    The `attendance` table is a map from (user, day) to one row of three 0/1
    flags. The table itself is keyed by the day's `YYYY-MM-DD` string; using
    the day number instead assumes the two determine each other (the
    formatter's half, distinct dates giving distinct strings, is
    `LocalDate.LocalDateStringInjective`). */
module Attendance {
  import opened Common
  import opened Clock

  type UserId = nat

  datatype Key = Key(user: UserId, day: int)

  datatype Row = Row(breakfast: Flag, lunch: Flag, dinner: Flag)
  {
    function Get(m: Meal): Flag
    {
      match m
      case Breakfast => breakfast
      case Lunch => lunch
      case Dinner => dinner
    }

    /** The row with meal `m`'s flag set to 1 (`SET meal = 1`). */
    function Mark(m: Meal): (r: Row)
      ensures r.Get(m) == 1
      ensures forall other :: other != m ==> r.Get(other) == Get(other)
    {
      match m
      case Breakfast => this.(breakfast := 1)
      case Lunch => this.(lunch := 1)
      case Dinner => this.(dinner := 1)
    }

    /** Meals attended that day, 0 to 3. */
    function Total(): (n: nat)
      ensures n <= 3
      ensures n == 0 <==> forall m :: Get(m) == 0
      ensures n == 3 <==> forall m :: Get(m) == 1
    {
      assert Get(Breakfast) == breakfast && Get(Lunch) == lunch && Get(Dinner) == dinner;
      breakfast + lunch + dinner
    }
  }

  /** The row a fresh INSERT starts from: every flag at its default 0. */
  const EmptyRow := Row(0, 0, 0)

  type Store = map<Key, Row>

  /** `getTodayAttendance`: the caller's row for today, or all zeros when
      there is none. */
  function TodayAttendance(store: Store, user: UserId, now: int): (r: Row)
    ensures Key(user, DayOf(now)) in store ==> r == store[Key(user, DayOf(now))]
    ensures Key(user, DayOf(now)) !in store ==> r.Total() == 0
  {
    var k := Key(user, DayOf(now));
    if k in store then store[k] else EmptyRow
  }

  /** Replies of `markAttendance`. */
  datatype MarkReply = InvalidMeal | Closed(meal: Meal) | Marked(meal: Meal)
  {
    function Status(): nat
    {
      match this
      case InvalidMeal => 400
      case Closed(_) => 403
      case Marked(_) => 200
    }
  }

  datatype MarkOutcome = MarkOutcome(reply: MarkReply, store: Store)

  /** `markAttendance`: validate the meal name, then the cutoff, then insert
      or update the caller's row for today with that meal's flag at 1. */
  function MarkAttendance(times: MealTimes, store: Store, user: UserId, meal: string, now: int): (r: MarkOutcome)
    requires times.Valid()
    ensures ParseMeal(meal).None? ==> r.reply == InvalidMeal && r.store == store
    ensures ParseMeal(meal).Some? && !CanMarkMeal(times, ParseMeal(meal).value, now) ==>
              r.reply == Closed(ParseMeal(meal).value) && r.store == store
    ensures ParseMeal(meal).Some? && CanMarkMeal(times, ParseMeal(meal).value, now) ==>
              && r.reply == Marked(ParseMeal(meal).value)
              && Key(user, DayOf(now)) in r.store
              && r.store[Key(user, DayOf(now))].Get(ParseMeal(meal).value) == 1
    ensures r.reply.Marked? <==> ParseMeal(meal).Some? && CanMarkMeal(times, ParseMeal(meal).value, now)
    ensures r.store.Keys == store.Keys || (r.reply.Marked? && r.store.Keys == store.Keys + {Key(user, DayOf(now))})
  {
    match ParseMeal(meal)
    case None => MarkOutcome(InvalidMeal, store)
    case Some(m) =>
      if !CanMarkMeal(times, m, now) then MarkOutcome(Closed(m), store)
      else
        var k := Key(user, DayOf(now));
        var row := if k in store then store[k] else EmptyRow;
        MarkOutcome(Marked(m), store[k := row.Mark(m)])
  }

  /** A successful mark changes one flag of one row: the other two flags of
      the caller's row keep their values (zero when the row is new) and every
      other row is untouched. */
  lemma MarkChangesOnlyOneFlag(times: MealTimes, store: Store, user: UserId, meal: string, now: int)
    requires times.Valid()
    requires MarkAttendance(times, store, user, meal, now).reply.Marked?
    ensures var r := MarkAttendance(times, store, user, meal, now);
      var k := Key(user, DayOf(now));
      && (forall other :: other != r.reply.meal ==>
            r.store[k].Get(other) == (if k in store then store[k].Get(other) else 0))
      && (forall k' :: k' in store && k' != k ==> k' in r.store && r.store[k'] == store[k'])
  {
  }

  /** No operation of the handler resets a flag: every row survives and each
      of its flags is at least what it was. */
  lemma MarkIsMonotone(times: MealTimes, store: Store, user: UserId, meal: string, now: int)
    requires times.Valid()
    ensures var r := MarkAttendance(times, store, user, meal, now);
      forall k, m :: k in store ==> k in r.store && r.store[k].Get(m) >= store[k].Get(m)
  {
  }

  /** Marking again later the same day leaves the table as the first call
      left it, whatever the second call replies. */
  lemma MarkTwiceSameDay(times: MealTimes, store: Store, user: UserId, meal: string, now1: int, now2: int)
    requires times.Valid()
    requires DayOf(now1) == DayOf(now2) && now1 <= now2
    ensures var first := MarkAttendance(times, store, user, meal, now1);
      MarkAttendance(times, first.store, user, meal, now2).store == first.store
  {
    var first := MarkAttendance(times, store, user, meal, now1);
    if ParseMeal(meal).Some? {
      var m := ParseMeal(meal).value;
      var k := Key(user, DayOf(now1));
      if CanMarkMeal(times, m, now1) && CanMarkMeal(times, m, now2) {
        assert first.store[k].Mark(m) == first.store[k];
      }
    }
  }

  /** Marking is visible to the "today" read: after a successful mark the
      caller's today row has the meal's flag set. */
  lemma MarkThenRead(times: MealTimes, store: Store, user: UserId, meal: string, now: int)
    requires times.Valid()
    requires ParseMeal(meal).Some? && CanMarkMeal(times, ParseMeal(meal).value, now)
    ensures TodayAttendance(MarkAttendance(times, store, user, meal, now).store, user, now)
              .Get(ParseMeal(meal).value) == 1
  {
  }

  /** Meals attended by `user` on `day`, 0 when there is no row. */
  function DayTotal(store: Store, user: UserId, day: int): (n: nat)
    ensures n <= 3
    ensures Key(user, day) !in store ==> n == 0
  {
    if Key(user, day) in store then store[Key(user, day)].Total() else 0
  }

  /** `getWeeklyAttendance`: seven totals for the week holding `now`,
      Monday first and Sunday last. */
  method WeeklyAttendance(store: Store, user: UserId, now: int) returns (week: seq<nat>)
    ensures |week| == 7
    ensures Weekday(MondayOf(DayOf(now))) == 1
    ensures forall i :: 0 <= i < 7 ==> week[i] <= 3
    ensures forall i :: 0 <= i < 7 ==>
              (Key(user, MondayOf(DayOf(now)) + i) in store ==>
                 week[i] == store[Key(user, MondayOf(DayOf(now)) + i)].Total())
    ensures forall i :: 0 <= i < 7 ==>
              (Key(user, MondayOf(DayOf(now)) + i) !in store ==> week[i] == 0)
    ensures week[DayOf(now) - MondayOf(DayOf(now))] == DayTotal(store, user, DayOf(now))
  {
    var monday := MondayOf(DayOf(now));
    var sunday := monday + 6;
    week := [];
    var d := monday;
    while d <= sunday
      invariant monday <= d <= sunday + 1
      invariant |week| == d - monday
      invariant forall i :: 0 <= i < |week| ==> week[i] == DayTotal(store, user, monday + i)
    {
      var k := Key(user, d);
      if k in store {
        week := week + [store[k].breakfast + store[k].lunch + store[k].dinner];
      } else {
        week := week + [0];
      }
      d := d + 1;
    }
  }
}

=== FILE: auth.dfy ===
/** The student sign-up flow of the auth controller: a one-time code is
    issued to an invited email, checked once, and then the sign-up itself.

    The in-memory code store maps an email to its code and expiry instant
    (milliseconds, the clock of `Date.now()`). */
module Auth {
  import opened Common
  import opened Decimal
  import opened Accounts
  import Admin

  /** A one-time code: the draw scaled onto 1000..9999, rounded down and
      written in decimal. */
  function GenerateOtp(draw: real): (code: string)
    requires 0.0 <= draw < 1.0
    ensures |code| == 4 && AllDigits(code)
    ensures 1000 <= ValueOf(code) <= 9999
  {
    var n := (1000.0 + draw * 9000.0).Floor;
    assert 1000 <= n <= 9999;
    FourDigits(n);
    ToDecimalRoundTrip(n);
    ToDecimal(n)
  }

  /** Every code from 1000 to 9999 is issued for some draw. */
  lemma EveryOtpReachable(n: nat)
    requires 1000 <= n <= 9999
    ensures exists draw :: 0.0 <= draw < 1.0 && ValueOf(GenerateOtp(draw)) == n
  {
    var draw := (n - 1000) as real / 9000.0;
    assert (1000.0 + draw * 9000.0).Floor == n;
    ToDecimalRoundTrip(n);
    assert ValueOf(GenerateOtp(draw)) == n;
  }

  /** How long an issued code stays valid: five minutes. */
  const OtpTtlMs: nat := 5 * 60 * 1000

  datatype OtpRecord = OtpRecord(otp: string, expiresAt: int)

  type OtpStore = map<string, OtpRecord>

  datatype AuthState = AuthState(otps: OtpStore, db: Db)

  /** Every stored code belongs to an email on the allowed list. */
  predicate CodesForAllowedOnly(s: AuthState)
  {
    forall e :: e in s.otps ==> e in s.db.allowed
  }

  datatype VerifyEmailReply = EmailRequired | NotAllowed | OtpSent | ServerError
  {
    function Status(): nat
    {
      match this
      case EmailRequired => 400
      case NotAllowed => 403
      case OtpSent => 200
      case ServerError => 500
    }
  }

  /** The code mail handed to the mailer. */
  datatype OtpMail = OtpMail(to: string, otp: string)

  datatype VerifyEmailOutcome = VerifyEmailOutcome(reply: VerifyEmailReply, state: AuthState, mail: Option<OtpMail>)

  /** The store update both versions of `verifyEmail` make for an allowed
      email: a fresh code valid for five minutes, replacing any earlier one. */
  function IssueOtp(s: AuthState, email: string, draw: real, now: int): (t: AuthState)
    requires 0.0 <= draw < 1.0
    ensures t.db == s.db
    ensures email in t.otps && t.otps[email].expiresAt == now + OtpTtlMs
    ensures AllDigits(t.otps[email].otp) && 1000 <= ValueOf(t.otps[email].otp) <= 9999
    ensures forall e :: e != email ==> (e in t.otps <==> e in s.otps) && (e in s.otps ==> t.otps[e] == s.otps[e])
  {
    s.(otps := s.otps[email := OtpRecord(GenerateOtp(draw), now + OtpTtlMs)])
  }

  /** `verifyEmail` as the handler is written: the mailer module object is
      called as if it were the send function, which throws after the code has
      been stored, so every allowed email gets a server error and no mail. */
  function VerifyEmailAsWritten(s: AuthState, email: Option<string>, draw: real, now: int): (r: VerifyEmailOutcome)
    requires 0.0 <= draw < 1.0
    ensures r.mail == None
    ensures r.reply != OtpSent
    ensures r.state == VerifyEmail(s, email, draw, now).state
    ensures r.reply == (if VerifyEmail(s, email, draw, now).reply == OtpSent then ServerError
                        else VerifyEmail(s, email, draw, now).reply)
  {
    if !Present(email) then VerifyEmailOutcome(EmailRequired, s, None)
    else if email.value !in s.db.allowed then VerifyEmailOutcome(NotAllowed, s, None)
    else VerifyEmailOutcome(ServerError, IssueOtp(s, email.value, draw, now), None)
  }

  /** As written, an allowed email is answered with a 500 even though its
      code was stored: the student never receives the code. */
  lemma VerifyEmailAsWrittenFailsAfterStoring(s: AuthState, email: string, draw: real, now: int)
    requires 0.0 <= draw < 1.0
    requires email != "" && email in s.db.allowed
    ensures var r := VerifyEmailAsWritten(s, Some(email), draw, now);
      && r.reply.Status() == 500
      && r.mail == None
      && email in r.state.otps
      && r.state == VerifyEmail(s, Some(email), draw, now).state
  {
  }

  /** `verifyEmail` with the send function imported: the email is required,
      must be on the allowed list (otherwise nothing changes), and then gets
      a fresh code that is stored and mailed. */
  function VerifyEmail(s: AuthState, email: Option<string>, draw: real, now: int): (r: VerifyEmailOutcome)
    requires 0.0 <= draw < 1.0
    ensures !Present(email) ==> r == VerifyEmailOutcome(EmailRequired, s, None)
    ensures Present(email) && email.value !in s.db.allowed ==> r == VerifyEmailOutcome(NotAllowed, s, None)
    ensures r.reply == OtpSent <==> Present(email) && email.value in s.db.allowed
    ensures r.reply == OtpSent ==>
              && r.state.db == s.db
              && email.value in r.state.otps
              && r.state.otps[email.value].expiresAt == now + OtpTtlMs
              && r.mail == Some(OtpMail(email.value, r.state.otps[email.value].otp))
              && (forall e :: e != email.value ==>
                    (e in r.state.otps <==> e in s.otps) && (e in s.otps ==> r.state.otps[e] == s.otps[e]))
    ensures CodesForAllowedOnly(s) ==> CodesForAllowedOnly(r.state)
  {
    if !Present(email) then VerifyEmailOutcome(EmailRequired, s, None)
    else if email.value !in s.db.allowed then VerifyEmailOutcome(NotAllowed, s, None)
    else
      var t := IssueOtp(s, email.value, draw, now);
      VerifyEmailOutcome(OtpSent, t, Some(OtpMail(email.value, t.otps[email.value].otp)))
  }

  datatype VerifyOtpReply = FieldsRequired | InvalidOtp | OtpExpired | Verified
  {
    function Status(): nat
    {
      match this
      case Verified => 200
      case _ => 400
    }
  }

  datatype VerifyOtpOutcome = VerifyOtpOutcome(reply: VerifyOtpReply, state: AuthState)

  /** `verifyOtp`: an unknown email or a wrong code changes nothing; a right
      code past its expiry is deleted; a right code in time is deleted and
      the email marked registered. The expiry instant itself is still in time. */
  function VerifyOtp(s: AuthState, email: Option<string>, otp: Option<string>, now: int): (r: VerifyOtpOutcome)
    ensures !Present(email) || !Present(otp) ==> r == VerifyOtpOutcome(FieldsRequired, s)
    ensures Present(email) && Present(otp) &&
            (email.value !in s.otps || s.otps[email.value].otp != otp.value) ==>
              r == VerifyOtpOutcome(InvalidOtp, s)
    ensures r.reply == OtpExpired <==>
              Present(email) && Present(otp) && email.value in s.otps &&
              s.otps[email.value].otp == otp.value && now > s.otps[email.value].expiresAt
    ensures r.reply == Verified <==>
              Present(email) && Present(otp) && email.value in s.otps &&
              s.otps[email.value].otp == otp.value && now <= s.otps[email.value].expiresAt
    ensures r.reply == OtpExpired ==> r.state == s.(otps := s.otps - {email.value})
    ensures r.reply == Verified ==>
              && r.state.otps == s.otps - {email.value}
              && r.state.db.users == s.db.users
              && r.state.db.allowed == (if email.value in s.db.allowed then s.db.allowed[email.value := true] else s.db.allowed)
    ensures CodesForAllowedOnly(s) ==> CodesForAllowedOnly(r.state)
  {
    if !Present(email) || !Present(otp) then VerifyOtpOutcome(FieldsRequired, s)
    else
      var e := email.value;
      if e !in s.otps || s.otps[e].otp != otp.value then VerifyOtpOutcome(InvalidOtp, s)
      else if now > s.otps[e].expiresAt then VerifyOtpOutcome(OtpExpired, s.(otps := s.otps - {e}))
      else
        var allowed := if e in s.db.allowed then s.db.allowed[e := true] else s.db.allowed;
        VerifyOtpOutcome(Verified, AuthState(s.otps - {e}, s.db.(allowed := allowed)))
  }

  /** A code works once: after it is accepted, the same code for the same
      email is refused at any later time. */
  lemma OtpIsSingleUse(s: AuthState, email: string, otp: string, now: int, later: int)
    requires VerifyOtp(s, Some(email), Some(otp), now).reply == Verified
    ensures VerifyOtp(VerifyOtp(s, Some(email), Some(otp), now).state, Some(email), Some(otp), later).reply == InvalidOtp
  {
  }

  /** The issued code is accepted up to and including its expiry instant and
      refused as expired afterwards; either way it is then gone. */
  lemma IssuedCodeWindow(s: AuthState, email: string, draw: real, now: int, later: int)
    requires 0.0 <= draw < 1.0
    requires email != "" && email in s.db.allowed
    ensures var issued := VerifyEmail(s, Some(email), draw, now);
      var code := issued.mail.value.otp;
      var checked := VerifyOtp(issued.state, Some(email), Some(code), later);
      && (later <= now + OtpTtlMs ==> checked.reply == Verified && checked.state.db.allowed[email])
      && (later > now + OtpTtlMs ==> checked.reply == OtpExpired)
      && email !in checked.state.otps
  {
    var issued := VerifyEmail(s, Some(email), draw, now);
    assert issued.mail.value.otp == issued.state.otps[email].otp;
    assert issued.mail.value.otp != "" by {
      assert |issued.state.otps[email].otp| == 4;
    }
  }

  datatype SignupReply = AllFieldsRequired | EmailNotVerified | EmailExists | Registered
  {
    function Status(): nat
    {
      match this
      case AllFieldsRequired => 400
      case EmailNotVerified => 403
      case EmailExists => 400
      case Registered => 200
    }
  }

  /** `signup`: all fields required, the email must be registered on the
      allowed list, and the users table's unique email refuses a second row. */
  function Signup(db: Db, fullName: Option<string>, email: Option<string>, password: Option<string>): (r: (SignupReply, Db))
    ensures !Present(fullName) || !Present(email) || !Present(password) ==> r == (AllFieldsRequired, db)
    ensures (Present(fullName) && Present(email) && Present(password) &&
             !(email.value in db.allowed && db.allowed[email.value])) ==> r == (EmailNotVerified, db)
    ensures r.0 == Registered <==>
              && Present(fullName) && Present(email) && Present(password)
              && email.value in db.allowed && db.allowed[email.value]
              && email.value !in db.users
    ensures r.0 == Registered ==> r.1 == db.(users := db.users[email.value := fullName.value])
    ensures r.0 != Registered ==> r.1 == db
  {
    if !Present(fullName) || !Present(email) || !Present(password) then (AllFieldsRequired, db)
    else if !(email.value in db.allowed && db.allowed[email.value]) then (EmailNotVerified, db)
    else if email.value in db.users then (EmailExists, db)
    else (Registered, db.(users := db.users[email.value := fullName.value]))
  }

  /** The whole flow for an email on the allowed list and not yet a user:
      issue a code, enter it in time, sign up. The code is the one the
      corrected `VerifyEmail` mails; the handler as written mails no code,
      so there the student never learns it. */
  lemma SignupFlowSucceeds(s: AuthState, email: string, draw: real, now: int, later: int,
                           name: string, password: string)
    requires 0.0 <= draw < 1.0
    requires email != "" && name != "" && password != ""
    requires email in s.db.allowed && email !in s.db.users
    requires now <= later <= now + OtpTtlMs
    ensures var issued := VerifyEmail(s, Some(email), draw, now);
      var checked := VerifyOtp(issued.state, Some(email), Some(issued.mail.value.otp), later);
      Signup(checked.state.db, Some(name), Some(email), Some(password)).0 == Registered
  {
    IssuedCodeWindow(s, email, draw, now, later);
  }

  /** With every allowed email backed by a user row, no sign-up can ever
      succeed: an email that passes the verified check already has a user. */
  lemma AllowedHaveUsersBlocksSignup(db: Db, fullName: Option<string>, email: Option<string>, password: Option<string>)
    requires AllowedHaveUsers(db)
    ensures Signup(db, fullName, email, password).0 != Registered
    ensures Signup(db, fullName, email, password).1 == db
  {
  }

  /** The code handlers and sign-up keep every allowed email backed by a
      user row. */
  lemma HandlersKeepAllowedHaveUsers(s: AuthState, email: Option<string>, otp: Option<string>, draw: real, now: int,
                                     fullName: Option<string>, password: Option<string>)
    requires 0.0 <= draw < 1.0
    requires AllowedHaveUsers(s.db)
    ensures AllowedHaveUsers(VerifyEmail(s, email, draw, now).state.db)
    ensures AllowedHaveUsers(VerifyEmailAsWritten(s, email, draw, now).state.db)
    ensures AllowedHaveUsers(VerifyOtp(s, email, otp, now).state.db)
    ensures AllowedHaveUsers(Signup(s.db, fullName, email, password).1)
  {
  }

  /** A student invited through the admin handler can never sign up: after
      the invitation the email has a user row, and once verified the sign-up
      is refused with "Email already exists". */
  lemma InvitedStudentSignupRefused(db: Db, fullName: string, email: string, draws: seq<real>,
                                    name: string, password: string)
    requires |draws| == Admin.DefaultPasswordLength && Admin.ValidDraws(draws)
    requires fullName != "" && email != ""
    ensures var invited := Admin.InviteStudent(db, Some(fullName), Some(email), draws).db;
      var verified := invited.(allowed := invited.allowed[email := true]);
      && Signup(invited, Some(name), Some(email), Some(password)).0 != Registered
      && (name != "" && password != "" ==>
            Signup(verified, Some(name), Some(email), Some(password)).0 == EmailExists)
  {
    Admin.InviteKeepsAllowedHaveUsers(db, Some(fullName), Some(email), draws);
  }

  /** An invited student already has a user row (the invitation inserts
      one), so their own sign-up can never insert a second: it is refused
      even after the code has been verified. */
  lemma InvitedStudentCannotSignUp(db: Db, email: string, name: string, password: string)
    requires email in db.users
    ensures Signup(db, Some(name), Some(email), Some(password)).0 != Registered
    ensures email in db.allowed && db.allowed[email] && email != "" && name != "" && password != "" ==>
              Signup(db, Some(name), Some(email), Some(password)).0 == EmailExists
  {
  }
}

=== FILE: clock.dfy ===
/** The local wall clock and the per-meal cutoffs.

    An instant is a whole number of milliseconds on the (single, fixed) local
    wall clock, counted from local midnight of 1970-01-01. A day number counts
    local calendar days from that date; day 0 was a Thursday. */
module Clock {
  import opened Common

  const MinuteMs: nat := 60 * 1000
  const HourMs: nat := 60 * MinuteMs
  const DayMs: nat := 24 * HourMs

  /** The day number of an instant. */
  function DayOf(now: int): int
  {
    now / DayMs
  }

  /** Milliseconds since local midnight. */
  function TimeOfDay(now: int): (t: nat)
    ensures t < DayMs
    ensures now == DayOf(now) * DayMs + t
  {
    now % DayMs
  }

  /** An instant given as a day number and a time of day splits back into
      them. */
  lemma SplitInstant(d: int, t: nat)
    requires t < DayMs
    ensures DayOf(d * DayMs + t) == d && TimeOfDay(d * DayMs + t) == t
  {
    assert DayMs == 86400000;
  }

  /** Local midnight that starts day `d`. */
  function Midnight(d: int): (t: int)
    ensures DayOf(t) == d && TimeOfDay(t) == 0
  {
    d * DayMs
  }

  /** A wall-clock time of day such as "13:15". */
  datatype ClockTime = ClockTime(hours: nat, minutes: nat)
  {
    predicate Valid()
    {
      hours < 24 && minutes < 60
    }

    /** Milliseconds from midnight to this time with seconds and
        milliseconds set to zero, as the deadline is set. */
    function Ms(): (ms: nat)
      requires Valid()
      ensures ms < DayMs && ms % MinuteMs == 0
    {
      hours * HourMs + minutes * MinuteMs
    }
  }

  /** A `mealTimes` table: the cutoff of each meal. */
  datatype MealTimes = MealTimes(breakfast: ClockTime, lunch: ClockTime, dinner: ClockTime)
  {
    predicate Valid()
    {
      breakfast.Valid() && lunch.Valid() && dinner.Valid()
    }

    function Cutoff(m: Meal): ClockTime
    {
      match m
      case Breakfast => breakfast
      case Lunch => lunch
      case Dinner => dinner
    }
  }

  /** The table the student attendance handlers use (dinner closes at 20:00). */
  const StudentMealTimes := MealTimes(ClockTime(8, 0), ClockTime(13, 15), ClockTime(20, 0))

  /** The table the kitchen-notification scheduler uses (dinner at 22:00). */
  const KitchenMealTimes := MealTimes(ClockTime(8, 0), ClockTime(13, 15), ClockTime(22, 0))

  lemma TablesAgreeExceptDinner()
    ensures StudentMealTimes.Valid() && KitchenMealTimes.Valid()
    ensures forall m :: m != Dinner ==> StudentMealTimes.Cutoff(m) == KitchenMealTimes.Cutoff(m)
    ensures StudentMealTimes.Cutoff(Dinner).Ms() < KitchenMealTimes.Cutoff(Dinner).Ms()
  {
  }

  /** The instant of meal `m`'s cutoff on the day of `now`. */
  function Deadline(times: MealTimes, m: Meal, now: int): (d: int)
    requires times.Valid()
    ensures DayOf(d) == DayOf(now)
    ensures TimeOfDay(d) == times.Cutoff(m).Ms()
    ensures d % MinuteMs == 0
  {
    Midnight(DayOf(now)) + times.Cutoff(m).Ms()
  }

  /** `canMarkMeal`: the meal can still be marked up to and including its
      cutoff instant on the current day. */
  function CanMarkMeal(times: MealTimes, m: Meal, now: int): (ok: bool)
    requires times.Valid()
    ensures ok <==> TimeOfDay(now) <= times.Cutoff(m).Ms()
  {
    now <= Deadline(times, m, now)
  }

  /** The cutoff instant itself is still open; one millisecond later is closed. */
  lemma CutoffIsInclusive(times: MealTimes, m: Meal, now: int)
    requires times.Valid()
    ensures CanMarkMeal(times, m, Deadline(times, m, now))
    ensures !CanMarkMeal(times, m, Deadline(times, m, now) + 1)
  {
    var d := Deadline(times, m, now);
    assert DayOf(d + 1) == DayOf(d) by {
      assert d + 1 == DayOf(d) * DayMs + (TimeOfDay(d) + 1);
    }
  }

  /** `getDay()`: 0 for Sunday, 1 for Monday, ..., 6 for Saturday. */
  function Weekday(day: int): (w: nat)
    ensures w < 7
    ensures (w - day) % 7 == 4
  {
    (day + 4) % 7
  }

  /** The Monday that starts the Monday-to-Sunday week holding `day`
      (a Sunday goes back six days). */
  function MondayOf(day: int): (monday: int)
    ensures Weekday(monday) == 1
    ensures monday <= day <= monday + 6
    ensures day - monday == (if Weekday(day) == 0 then 6 else Weekday(day) - 1)
  {
    var w := Weekday(day);
    day - (if w == 0 then 6 else w - 1)
  }
}

=== FILE: common.dfy ===
/** Vocabulary shared by every part of the mess-management model: optional
    values, the three meals, 0/1 attendance flags, per-meal buckets and the
    "falsy field" rule the HTTP handlers apply to request bodies. */
module Common {

  datatype Option<+T> = None | Some(value: T)

  /** The three meals of a day, in their fixed order. */
  datatype Meal = Breakfast | Lunch | Dinner

  /** The lower-case name the handlers and the database columns use. */
  function MealName(m: Meal): string
  {
    match m
    case Breakfast => "breakfast"
    case Lunch => "lunch"
    case Dinner => "dinner"
  }

  /** The request-body check on a meal name: it is accepted only when it is
      one of the three column names. */
  function ParseMeal(s: string): (r: Option<Meal>)
    ensures r.Some? <==> s in {"breakfast", "lunch", "dinner"}
    ensures r.Some? ==> MealName(r.value) == s
  {
    if s == "breakfast" then Some(Breakfast)
    else if s == "lunch" then Some(Lunch)
    else if s == "dinner" then Some(Dinner)
    else None
  }

  lemma ParseMealName(m: Meal)
    ensures ParseMeal(MealName(m)) == Some(m)
  {
  }

  /** A TINYINT column that only ever holds 0 or 1. */
  type Flag = x: int | 0 <= x <= 1

  /** One list per meal, as in the per-meal objects the handlers and screens
      build. */
  datatype MealBuckets<T> = MealBuckets(breakfast: seq<T>, lunch: seq<T>, dinner: seq<T>)
  {
    function Get(m: Meal): seq<T>
    {
      match m
      case Breakfast => breakfast
      case Lunch => lunch
      case Dinner => dinner
    }

    function Set(m: Meal, s: seq<T>): (r: MealBuckets<T>)
      ensures r.Get(m) == s
      ensures forall other :: other != m ==> r.Get(other) == Get(other)
    {
      match m
      case Breakfast => this.(breakfast := s)
      case Lunch => this.(lunch := s)
      case Dinner => this.(dinner := s)
    }

    function Append(m: Meal, x: T): (r: MealBuckets<T>)
      ensures r.Get(m) == Get(m) + [x]
      ensures forall other :: other != m ==> r.Get(other) == Get(other)
    {
      Set(m, Get(m) + [x])
    }
  }

  function EmptyBuckets<T>(): MealBuckets<T>
  {
    MealBuckets([], [], [])
  }

  /** `Array.prototype.filter`: the elements satisfying `p`, in their order. */
  function Filter<T>(p: T -> bool, s: seq<T>): (r: seq<T>)
    ensures |r| <= |s|
    decreases |s|
  {
    if s == [] then []
    else if p(s[0]) then [s[0]] + Filter(p, s[1..])
    else Filter(p, s[1..])
  }

  /** What `filter` keeps: only elements of `s` satisfying `p`, and every
      element of `s` satisfying `p`. */
  lemma {:induction false} FilterMembers<T>(p: T -> bool, s: seq<T>)
    ensures forall i :: 0 <= i < |Filter(p, s)| ==> Filter(p, s)[i] in s && p(Filter(p, s)[i])
    ensures forall i :: 0 <= i < |s| ==> (s[i] in Filter(p, s) <==> p(s[i]))
    decreases |s|
  {
    if s != [] {
      var r, t := Filter(p, s), Filter(p, s[1..]);
      FilterMembers(p, s[1..]);
      forall i | 0 <= i < |r| ensures r[i] in s && p(r[i]) {
        if p(s[0]) && i > 0 {
          assert r[i] == t[i - 1] && t[i - 1] in s[1..];
        } else if !p(s[0]) {
          assert r[i] == t[i] && t[i] in s[1..];
        }
      }
      forall i | 0 <= i < |s| ensures s[i] in r <==> p(s[i]) {
        if i > 0 && p(s[i]) {
          assert s[i] == s[1..][i - 1];
          var j :| 0 <= j < |t| && t[j] == s[i];
          assert r[if p(s[0]) then j + 1 else j] == s[i];
        } else if i == 0 && p(s[0]) {
          assert r[0] == s[0];
        }
      }
    }
  }

  /** Everything satisfies `p`: the filter keeps the whole sequence. */
  lemma {:induction false} FilterAll<T>(p: T -> bool, s: seq<T>)
    requires forall i :: 0 <= i < |s| ==> p(s[i])
    ensures Filter(p, s) == s
    decreases |s|
  {
    if s != [] {
      assert forall i :: 0 <= i < |s[1..]| ==> s[1..][i] == s[i + 1];
      FilterAll(p, s[1..]);
      assert s == [s[0]] + s[1..];
    }
  }

  /** Nothing satisfies `p`: the filter is empty. */
  lemma {:induction false} FilterNone<T>(p: T -> bool, s: seq<T>)
    requires forall i :: 0 <= i < |s| ==> !p(s[i])
    ensures Filter(p, s) == []
    decreases |s|
  {
    if s != [] {
      assert forall i :: 0 <= i < |s[1..]| ==> s[1..][i] == s[i + 1];
      FilterNone(p, s[1..]);
    }
  }

  /** Filtering a concatenation filters each part and keeps them in order,
      so survivors keep their relative order. */
  lemma {:induction false} FilterAppend<T>(p: T -> bool, a: seq<T>, b: seq<T>)
    ensures Filter(p, a + b) == Filter(p, a) + Filter(p, b)
    decreases |a|
  {
    if a != [] {
      assert (a + b)[1..] == a[1..] + b;
      FilterAppend(p, a[1..], b);
    } else {
      assert a + b == b;
    }
  }

  /** The sequence without any copy of `x`, the rest in order. */
  function Without<T(==)>(s: seq<T>, x: T): seq<T>
  {
    Filter(Differs(x), s)
  }

  function Differs<T(==)>(x: T): T -> bool
  {
    (y: T) => y != x
  }

  /** Removing from a concatenation removes from each part, in order. */
  lemma WithoutAppend<T>(a: seq<T>, b: seq<T>, x: T)
    ensures Without(a + b, x) == Without(a, x) + Without(b, x)
  {
    FilterAppend(Differs(x), a, b);
  }

  /** Removing a value that is not there changes nothing. */
  lemma {:induction false} WithoutAbsent<T>(s: seq<T>, x: T)
    requires x !in s
    ensures Without(s, x) == s
    decreases |s|
  {
    if s != [] {
      assert s[0] != x;
      WithoutAbsent(s[1..], x);
      assert s == [s[0]] + s[1..];
    }
  }

  /** Removing a value removes all its copies and keeps the count of every
      other value. */
  lemma {:induction false} WithoutCounts<T>(s: seq<T>, x: T)
    ensures multiset(Without(s, x)) == multiset(s)[x := 0]
    decreases |s|
  {
    if s != [] {
      WithoutCounts(s[1..], x);
      assert s == [s[0]] + s[1..];
    }
  }

  /** Filtering one more element at the end. */
  lemma FilterSnoc<T>(p: T -> bool, s: seq<T>, x: T)
    ensures Filter(p, s + [x]) == Filter(p, s) + (if p(x) then [x] else [])
  {
    FilterAppend(p, s, [x]);
    assert [x][1..] == [];
  }

  /** `Array.prototype.map`. */
  function MapSeq<A, B>(f: A -> B, s: seq<A>): (r: seq<B>)
    ensures |r| == |s|
    ensures forall i :: 0 <= i < |s| ==> r[i] == f(s[i])
  {
    seq(|s|, i requires 0 <= i < |s| => f(s[i]))
  }

  lemma MapSeqAppend<A, B>(f: A -> B, a: seq<A>, b: seq<A>)
    ensures MapSeq(f, a + b) == MapSeq(f, a) + MapSeq(f, b)
  {
  }

  /** JavaScript truthiness of a string field of a JSON body: absent, null and
      the empty string are all rejected by `!field`. */
  predicate Present(field: Option<string>)
  {
    field.Some? && field.value != ""
  }
}

=== FILE: decimal.dfy ===
/** Decimal text of natural numbers: what `String(n)`, `n.toString()` and
    `padStart(2, "0")` produce, and the digit-reading function that undoes them. */
module Decimal {

  predicate IsDigit(c: char)
  {
    '0' <= c <= '9'
  }

  predicate AllDigits(s: string)
  {
    forall i :: 0 <= i < |s| ==> IsDigit(s[i])
  }

  function DigitChar(d: nat): (c: char)
    requires d < 10
    ensures IsDigit(c)
  {
    ['0', '1', '2', '3', '4', '5', '6', '7', '8', '9'][d]
  }

  function DigitValue(c: char): (d: nat)
    requires IsDigit(c)
    ensures d < 10
  {
    (c - '0') as nat
  }

  lemma DigitRoundTrip(d: nat)
    requires d < 10
    ensures DigitValue(DigitChar(d)) == d
  {
  }

  /** The shortest decimal text of `n`, most significant digit first. */
  function ToDecimal(n: nat): (s: string)
    ensures |s| >= 1 && AllDigits(s)
    ensures |s| > 1 ==> s[0] != '0'
    decreases n
  {
    if n < 10 then [DigitChar(n)]
    else ToDecimal(n / 10) + [DigitChar(n % 10)]
  }

  /** The value of a string of digits read in base ten; the empty string reads 0. */
  function ValueOf(s: string): nat
    requires AllDigits(s)
    decreases |s|
  {
    if s == [] then 0
    else ValueOf(s[..|s| - 1]) * 10 + DigitValue(s[|s| - 1])
  }

  /** Reading back the text of a number gives the number. */
  lemma {:induction false} ToDecimalRoundTrip(n: nat)
    ensures ValueOf(ToDecimal(n)) == n
    decreases n
  {
    var s := ToDecimal(n);
    if n < 10 {
      DigitRoundTrip(n);
      assert s[..|s| - 1] == [];
    } else {
      ToDecimalRoundTrip(n / 10);
      DigitRoundTrip(n % 10);
      assert s[..|s| - 1] == ToDecimal(n / 10);
    }
  }

  /** Numbers from 1000 to 9999 are written with exactly four digits. */
  lemma FourDigits(n: nat)
    requires 1000 <= n <= 9999
    ensures |ToDecimal(n)| == 4
  {
    assert |ToDecimal(n / 1000)| == 1;
    assert |ToDecimal(n / 100)| == 2 by { assert (n / 100) / 10 == n / 1000; }
    assert |ToDecimal(n / 10)| == 3 by { assert (n / 10) / 10 == n / 100; }
  }

  /** Numbers below 100 are written with one or two digits. */
  lemma AtMostTwoDigits(n: nat)
    requires n < 100
    ensures |ToDecimal(n)| <= 2
  {
  }

  /** `padStart(2, "0")`: texts shorter than two characters get leading zeros. */
  function PadStart2(s: string): (r: string)
    ensures |s| <= 2 ==> |r| == 2
    ensures |s| >= 2 ==> r == s
    ensures exists k :: 0 <= k <= |r| && r[k..] == s && forall i :: 0 <= i < k ==> r[i] == '0'
  {
    if |s| >= 2 then
      assert s[0..] == s;
      s
    else
      var r := seq(2 - |s|, _ => '0') + s;
      assert r[2 - |s|..] == s;
      r
  }

  lemma {:induction false} LeadingZeroValue(s: string)
    requires AllDigits(s)
    ensures AllDigits("0" + s) && ValueOf("0" + s) == ValueOf(s)
    decreases |s|
  {
    var t := "0" + s;
    if s != [] {
      assert t[..|t| - 1] == "0" + s[..|s| - 1];
      LeadingZeroValue(s[..|s| - 1]);
    } else {
      assert t[..|t| - 1] == [];
    }
  }

  /** Zero padding keeps the digits' value. */
  lemma PadValue(s: string)
    requires AllDigits(s) && |s| >= 1
    ensures AllDigits(PadStart2(s)) && ValueOf(PadStart2(s)) == ValueOf(s)
  {
    if |s| < 2 {
      assert PadStart2(s) == "0" + s;
      LeadingZeroValue(s);
    }
  }

  /** The value of two decimal digits, tens first. */
  function PairValue(tens: char, ones: char): nat
    requires IsDigit(tens) && IsDigit(ones)
  {
    DigitValue(tens) * 10 + DigitValue(ones)
  }

  /** Two-digit zero-padded text of a number below 100. */
  function TwoDigits(n: nat): (r: string)
    requires n < 100
    ensures |r| == 2 && AllDigits(r) && ValueOf(r) == n
    ensures PairValue(r[0], r[1]) == n
  {
    AtMostTwoDigits(n);
    ToDecimalRoundTrip(n);
    var r := PadStart2(ToDecimal(n));
    PadValue(ToDecimal(n));
    ValueOfPair(r);
    r
  }

  /** Two digits read as a number are tens and ones. */
  lemma ValueOfPair(t: string)
    requires |t| == 2 && AllDigits(t)
    ensures ValueOf(t) == PairValue(t[0], t[1])
  {
    var head := t[..1];
    assert head == [t[0]] && t[..|t| - 1] == head;
    assert head[..0] == [];
    assert ValueOf(head) == DigitValue(t[0]);
  }
}

=== FILE: feedback_screen.dfy ===
/** The admin feedback screen's optimistic update: the list is changed
    locally before the status request is sent. */
module FeedbackScreen {

  datatype Status = Pending | Reviewed

  datatype FeedbackItem = FeedbackItem(feedbackId: int, user: string, category: string,
                                       stars: int, comment: string, status: Status)

  /** The local update made before the request is sent: every item with the
      given id is copied with its status set to reviewed, the rest are kept. */
  function MarkAsReviewed(items: seq<FeedbackItem>, id: int): (r: seq<FeedbackItem>)
    ensures |r| == |items|
    ensures forall i :: 0 <= i < |items| && items[i].feedbackId == id ==>
              r[i].status == Reviewed && r[i].(status := items[i].status) == items[i]
    ensures forall i :: 0 <= i < |items| && items[i].feedbackId != id ==> r[i] == items[i]
    decreases |items|
  {
    if items == [] then []
    else
      var head := if items[0].feedbackId == id then items[0].(status := Reviewed) else items[0];
      [head] + MarkAsReviewed(items[1..], id)
  }

  /** Marking the same item twice is marking it once. */
  lemma MarkAsReviewedIdempotent(items: seq<FeedbackItem>, id: int)
    ensures MarkAsReviewed(MarkAsReviewed(items, id), id) == MarkAsReviewed(items, id)
  {
  }

  /** Ids of the items already reviewed. */
  function ReviewedIds(items: seq<FeedbackItem>): set<int>
  {
    set i | 0 <= i < |items| && items[i].status == Reviewed :: items[i].feedbackId
  }

  function Ids(items: seq<FeedbackItem>): set<int>
  {
    set i | 0 <= i < |items| :: items[i].feedbackId
  }

  /** The reviewed ids grow by `id` when the list holds it, and by nothing else. */
  lemma MarkAsReviewedAddsOnlyId(items: seq<FeedbackItem>, id: int)
    ensures ReviewedIds(MarkAsReviewed(items, id)) == ReviewedIds(items) + (Ids(items) * {id})
  {
    var r := MarkAsReviewed(items, id);
    forall x | x in ReviewedIds(r) ensures x in ReviewedIds(items) + (Ids(items) * {id}) {
      var i :| 0 <= i < |r| && r[i].status == Reviewed && r[i].feedbackId == x;
      if items[i].feedbackId != id {
        assert items[i] == r[i];
      }
    }
    forall x | x in ReviewedIds(items) + (Ids(items) * {id}) ensures x in ReviewedIds(r) {
      if x in ReviewedIds(items) {
        var i :| 0 <= i < |items| && items[i].status == Reviewed && items[i].feedbackId == x;
        assert r[i].status == Reviewed && r[i].feedbackId == x;
      } else {
        var i :| 0 <= i < |items| && items[i].feedbackId == x;
        assert r[i].status == Reviewed && r[i].feedbackId == x;
      }
    }
  }
}

=== FILE: kitchen.dfy ===
/** The kitchen side of the daily meal cycle in the admin controller: the
    per-meal headcount notification with its one-way "sent" flag, the read of
    today's flags, the per-meal list of present students and the timer's
    first-delay rule. */
module Kitchen {
  import opened Common
  import opened Clock
  import opened Attendance

  /** `attendance_email_status`: one row per day whose `*_sent` columns have
      the same 0/1 shape as an attendance row. */
  type StatusStore = map<int, Row>

  /** Rows of day `day` whose flag for `meal` is 1, the rows the headcount
      query selects. */
  function PresentKeys(store: Store, day: int, meal: Meal): (ks: set<Key>)
    ensures forall k :: k in ks <==> k in store && k.day == day && store[k].Get(meal) == 1
  {
    set k | k in store && k.day == day && store[k].Get(meal) == 1
  }

  /** The present rows are some of the table's rows, so never more of them. */
  lemma PresentKeysWithin(store: Store, day: int, meal: Meal)
    ensures |PresentKeys(store, day, meal)| <= |store|
  {
    var ks := PresentKeys(store, day, meal);
    assert ks <= store.Keys;
    SubsetCard(ks, store.Keys);
  }

  lemma {:induction false} SubsetCard<T>(a: set<T>, b: set<T>)
    requires a <= b
    ensures |a| <= |b|
    decreases |b|
  {
    if a != {} {
      var x :| x in a;
      SubsetCard(a - {x}, b - {x});
    }
  }

  /** Students present for `meal` on `day`: the number of rows the
      headcount query returns. */
  function Headcount(store: Store, day: int, meal: Meal): (count: nat)
    ensures count > 0 <==> exists k :: k in store && k.day == day && store[k].Get(meal) == 1
    ensures count <= |store|
  {
    PresentKeysWithin(store, day, meal);
    |PresentKeys(store, day, meal)|
  }

  /** The summary mailed to the kitchen address: the meal and its headcount. */
  datatype Notice = Notice(to: string, meal: Meal, count: nat)

  datatype SendOutcome = SendOutcome(notice: Option<Notice>, status: StatusStore)

  /** `sendMealEmail`: with nobody present nothing is sent and nothing
      written; otherwise one notice carries the headcount and that meal's
      sent flag for today is upserted to 1. The mail helper swallows its own
      errors, so from here the send always completes. */
  function SendMealEmail(kitchen: string, meal: Meal, now: int, store: Store, status: StatusStore): (r: SendOutcome)
    ensures Headcount(store, DayOf(now), meal) == 0 ==> r.notice == None && r.status == status
    ensures Headcount(store, DayOf(now), meal) > 0 ==>
              && r.notice == Some(Notice(kitchen, meal, Headcount(store, DayOf(now), meal)))
              && DayOf(now) in r.status
              && r.status[DayOf(now)].Get(meal) == 1
              && (forall other :: other != meal ==>
                    r.status[DayOf(now)].Get(other) ==
                    (if DayOf(now) in status then status[DayOf(now)].Get(other) else 0))
              && (forall d :: d in status && d != DayOf(now) ==> d in r.status && r.status[d] == status[d])
    ensures r.status.Keys <= status.Keys + {DayOf(now)}
  {
    var today := DayOf(now);
    var count := Headcount(store, today, meal);
    if count > 0 then
      var row := if today in status then status[today] else EmptyRow;
      SendOutcome(Some(Notice(kitchen, meal, count)), status[today := row.Mark(meal)])
    else
      SendOutcome(None, status)
  }

  /** A sent flag is never reset to 0. */
  lemma SendIsMonotone(kitchen: string, meal: Meal, now: int, store: Store, status: StatusStore)
    ensures var r := SendMealEmail(kitchen, meal, now, store, status);
      forall d, m :: d in status ==> d in r.status && r.status[d].Get(m) >= status[d].Get(m)
  {
  }

  /** The handler does not read the sent flag before sending: a second run
      on the same day with students present sends a second notice, and the
      flags stay as the first run left them. */
  lemma SendHasNoReadGuard(kitchen: string, meal: Meal, now: int, store: Store, status: StatusStore)
    requires Headcount(store, DayOf(now), meal) > 0
    ensures var first := SendMealEmail(kitchen, meal, now, store, status);
      var second := SendMealEmail(kitchen, meal, now, store, first.status);
      && first.status[DayOf(now)].Get(meal) == 1
      && second.notice == first.notice && second.notice.Some?
      && second.status == first.status
  {
    var first := SendMealEmail(kitchen, meal, now, store, status);
    assert first.status[DayOf(now)].Mark(meal) == first.status[DayOf(now)];
  }

  /** A student who marked a meal before its cutoff is counted when the
      kitchen notice for that meal goes out on the same day. */
  lemma MarkedStudentIsCounted(times: MealTimes, store: Store, user: UserId, meal: Meal, now: int, later: int)
    requires times.Valid()
    requires CanMarkMeal(times, meal, now) && DayOf(later) == DayOf(now)
    ensures var marked := MarkAttendance(times, store, user, MealName(meal), now).store;
      && Key(user, DayOf(now)) in PresentKeys(marked, DayOf(now), meal)
      && Headcount(marked, DayOf(later), meal) > 0
  {
    ParseMealName(meal);
  }

  /** Today's `*_sent` flags as booleans. */
  datatype SentFlags = SentFlags(breakfast: bool, lunch: bool, dinner: bool)
  {
    function Get(m: Meal): bool
    {
      match m
      case Breakfast => breakfast
      case Lunch => lunch
      case Dinner => dinner
    }
  }

  /** `getEmailSentStatus`: all false without a row for today; otherwise each
      flag is true exactly when its column equals 1. */
  function EmailSentStatus(status: StatusStore, now: int): (r: SentFlags)
    ensures DayOf(now) !in status ==> forall m :: !r.Get(m)
    ensures DayOf(now) in status ==> forall m :: r.Get(m) <==> status[DayOf(now)].Get(m) == 1
  {
    var row := if DayOf(now) in status then status[DayOf(now)] else EmptyRow;
    SentFlags(row.breakfast == 1, row.lunch == 1, row.dinner == 1)
  }

  /** After a notice goes out the status read reports that meal as sent,
      and sending never makes a meal read as unsent. */
  lemma SentStatusAfterSend(kitchen: string, meal: Meal, now: int, store: Store, status: StatusStore)
    ensures var r := SendMealEmail(kitchen, meal, now, store, status);
      && (r.notice.Some? ==> EmailSentStatus(r.status, now).Get(meal))
      && (forall m :: EmailSentStatus(status, now).Get(m) ==> EmailSentStatus(r.status, now).Get(m))
  {
  }

  /** One row of the today's-students query. */
  datatype PresentRow = PresentRow(fullName: string, email: string, flags: Row)

  /** `getTodayPresentStudents`: for each meal, the rows whose flag for it
      is 1, in query order. */
  function TodayPresentStudents(rows: seq<PresentRow>): (r: MealBuckets<PresentRow>)
    ensures forall m, i :: 0 <= i < |r.Get(m)| ==> r.Get(m)[i] in rows && r.Get(m)[i].flags.Get(m) == 1
    ensures forall m, i :: 0 <= i < |rows| ==> (rows[i] in r.Get(m) <==> rows[i].flags.Get(m) == 1)
    ensures forall m :: |r.Get(m)| <= |rows|
  {
    FilterMembers(PresentFor(Breakfast), rows);
    FilterMembers(PresentFor(Lunch), rows);
    FilterMembers(PresentFor(Dinner), rows);
    MealBuckets(Filter(PresentFor(Breakfast), rows),
                Filter(PresentFor(Lunch), rows),
                Filter(PresentFor(Dinner), rows))
  }

  function PresentFor(m: Meal): PresentRow -> bool
  {
    (row: PresentRow) => row.flags.Get(m) == 1
  }

  /** Each list keeps query order: the rows of a longer result split into
      the lists of its two parts, in sequence. */
  lemma TodayPresentStudentsKeepsOrder(a: seq<PresentRow>, b: seq<PresentRow>, m: Meal)
    ensures TodayPresentStudents(a + b).Get(m) == TodayPresentStudents(a).Get(m) + TodayPresentStudents(b).Get(m)
  {
    FilterAppend(PresentFor(m), a, b);
  }

  /** `scheduleMealEmails`: for each meal whose cutoff today has not passed,
      the delay until it; a meal whose cutoff has passed gets no timer. */
  function ScheduleMealEmails(times: MealTimes, now: int): (timers: map<Meal, nat>)
    requires times.Valid()
    ensures forall m :: m in timers <==> now <= Deadline(times, m, now)
    ensures forall m :: m in timers ==> now + timers[m] == Deadline(times, m, now)
  {
    map m | m in {Breakfast, Lunch, Dinner} && Deadline(times, m, now) - now >= 0 :: Deadline(times, m, now) - now
  }

  /** A meal gets a timer exactly when it could still be marked, so with the
      same table the two rules agree on the cutoff instant. */
  lemma ScheduledIffMarkable(times: MealTimes, m: Meal, now: int)
    requires times.Valid()
    ensures m in ScheduleMealEmails(times, now) <==> CanMarkMeal(times, m, now)
  {
  }

  /** The re-armed timer fires every 24 hours (one `DayMs`) after the first delay. */
  function FireTime(now: int, delay: nat, k: nat): int
  {
    now + delay + k * DayMs
  }

  /** The k-th firing of a scheduled meal falls on its cutoff, k days later. */
  lemma FiringsFallOnCutoff(times: MealTimes, m: Meal, now: int, k: nat)
    requires times.Valid()
    requires m in ScheduleMealEmails(times, now)
    ensures var t := FireTime(now, ScheduleMealEmails(times, now)[m], k);
      DayOf(t) == DayOf(now) + k && TimeOfDay(t) == times.Cutoff(m).Ms()
  {
    var t := FireTime(now, ScheduleMealEmails(times, now)[m], k);
    assert t == Deadline(times, m, now) + k * DayMs;
    assert t == (DayOf(now) + k) * DayMs + times.Cutoff(m).Ms();
    SplitInstant(DayOf(now) + k, times.Cutoff(m).Ms());
  }
}

=== FILE: local_date.dfy ===
/** `getLocalDateString`: the `YYYY-MM-DD` key under which attendance and
    email-status rows are stored, and a reader that recovers the date from it. */
module LocalDate {
  import opened Common
  import opened Decimal

  /** The local calendar fields of a `Date`, as its getters return them:
      `getFullYear()`, the 0-based `getMonth()` and the 1-based `getDate()`. */
  datatype DateParts = DateParts(fullYear: nat, monthIndex: nat, date: nat)
  {
    /** A real calendar date: a month of the year and a day within it. */
    predicate Valid()
    {
      monthIndex < 12 && 1 <= date <= DaysInMonth(fullYear, monthIndex)
    }
  }

  /** Gregorian leap years. */
  predicate IsLeapYear(y: nat)
  {
    (y % 4 == 0 && y % 100 != 0) || y % 400 == 0
  }

  /** Days in the month with 0-based index `m` of year `y`. */
  function DaysInMonth(y: nat, m: nat): (n: nat)
    requires m < 12
    ensures 28 <= n <= 31
    ensures m == 1 ==> (n == 29 <==> IsLeapYear(y))
  {
    if m == 1 then (if IsLeapYear(y) then 29 else 28)
    else if m in {3, 5, 8, 10} then 30
    else 31
  }

  /** The year unpadded, then the 1-based month and the day of month, each
      zero-padded to two digits, joined by dashes. */
  function LocalDateString(d: DateParts): (s: string)
    requires d.Valid()
    ensures var y := |ToDecimal(d.fullYear)|;
      && |s| == y + 6
      && s[y] == '-' && s[y + 3] == '-'
      && AllDigits(s[..y]) && ValueOf(s[..y]) == d.fullYear
      && IsDigit(s[y + 1]) && IsDigit(s[y + 2]) && PairValue(s[y + 1], s[y + 2]) == d.monthIndex + 1
      && IsDigit(s[y + 4]) && IsDigit(s[y + 5]) && PairValue(s[y + 4], s[y + 5]) == d.date
  {
    var year, month, day := ToDecimal(d.fullYear), TwoDigits(d.monthIndex + 1), TwoDigits(d.date);
    ToDecimalRoundTrip(d.fullYear);
    JoinSlices(year, month, day);
    Join(year, month, day)
  }

  /** `${a}-${b}-${c}`. */
  function Join(a: string, b: string, c: string): string
  {
    a + "-" + b + "-" + c
  }

  /** Where each part of a joined key with two-character month and day sits. */
  lemma JoinSlices(a: string, b: string, c: string)
    requires |b| == 2 && |c| == 2
    ensures var s, y := Join(a, b, c), |a|;
      && |s| == y + 6
      && s[y] == '-' && s[y + 3] == '-'
      && s[..y] == a
      && s[y + 1] == b[0] && s[y + 2] == b[1]
      && s[y + 4] == c[0] && s[y + 5] == c[1]
  {
    var s, y := Join(a, b, c), |a|;
    assert s[..y] == a;
  }

  /** Reads a `YYYY-MM-DD` key back into calendar fields; `None` for text
      of any other shape or with an out-of-range month or day. */
  function ParseLocalDate(s: string): (r: Option<DateParts>)
    ensures r.Some? ==> r.value.Valid()
  {
    if |s| < 7 then None
    else
      var y := |s| - 6;
      if s[y] != '-' || s[y + 3] != '-' || !AllDigits(s[..y]) then None
      else if !(IsDigit(s[y + 1]) && IsDigit(s[y + 2]) && IsDigit(s[y + 4]) && IsDigit(s[y + 5])) then None
      else
        var month, day := PairValue(s[y + 1], s[y + 2]), PairValue(s[y + 4], s[y + 5]);
        if !(1 <= month <= 12) then None
        else
          var d := DateParts(ValueOf(s[..y]), month - 1, day);
          if d.Valid() then Some(d) else None
  }

  /** Any text shaped like the key of `d` parses back to `d`. */
  lemma ParseKeyShaped(s: string, d: DateParts, y: nat)
    requires d.Valid() && y >= 1
    requires |s| == y + 6 && s[y] == '-' && s[y + 3] == '-'
    requires AllDigits(s[..y]) && ValueOf(s[..y]) == d.fullYear
    requires IsDigit(s[y + 1]) && IsDigit(s[y + 2]) && PairValue(s[y + 1], s[y + 2]) == d.monthIndex + 1
    requires IsDigit(s[y + 4]) && IsDigit(s[y + 5]) && PairValue(s[y + 4], s[y + 5]) == d.date
    ensures ParseLocalDate(s) == Some(d)
  {
  }

  /** Reading a formatted date gives back the same date. */
  lemma LocalDateRoundTrip(d: DateParts)
    requires d.Valid()
    ensures ParseLocalDate(LocalDateString(d)) == Some(d)
  {
    ParseKeyShaped(LocalDateString(d), d, |ToDecimal(d.fullYear)|);
  }

  /** Distinct dates have distinct keys, so one row per (user, key) is one
      row per (user, date). */
  lemma LocalDateStringInjective(d1: DateParts, d2: DateParts)
    requires d1.Valid() && d2.Valid()
    ensures LocalDateString(d1) == LocalDateString(d2) ==> d1 == d2
  {
    LocalDateRoundTrip(d1);
    LocalDateRoundTrip(d2);
  }
}

=== FILE: menu_editor.dfy ===
/** The admin menu screen's checkbox toggle: ticking an item adds its food
    id to the meal's selection, unticking removes it. */
module MenuEditor {
  import opened Common
  import opened Decimal
  import Admin

  /** The checkbox toggle on a list of food ids: a ticked id is removed
      (every copy of it), an unticked id is appended at the end. */
  function ToggleList(s: seq<int>, x: int): (r: seq<int>)
    ensures x in r <==> x !in s
    ensures forall y :: y != x ==> (y in r <==> y in s)
    ensures multiset(r)[x] == (if x in s then 0 else 1)
    ensures forall y :: y != x ==> multiset(r)[y] == multiset(s)[y]
    ensures x !in s ==> |r| == |s| + 1 && r[..|s|] == s && r[|s|] == x
  {
    if x in s then
      WithoutCounts(s, x);
      assert forall y :: y in Without(s, x) <==> y in multiset(Without(s, x));
      assert forall y :: y in s <==> y in multiset(s);
      Without(s, x)
    else
      assert (s + [x])[..|s|] == s;
      s + [x]
  }

  /** `toggleSelection`: only the chosen meal's list changes. */
  function ToggleSelection(menu: MealBuckets<int>, meal: Meal, foodId: int): (r: MealBuckets<int>)
    ensures r.Get(meal) == ToggleList(menu.Get(meal), foodId)
    ensures forall other :: other != meal ==> r.Get(other) == menu.Get(other)
  {
    menu.Set(meal, ToggleList(menu.Get(meal), foodId))
  }

  /** Toggling an id that was not selected, twice, restores the selection. */
  lemma ToggleTwiceRestores(s: seq<int>, x: int)
    requires x !in s
    ensures ToggleList(ToggleList(s, x), x) == s
  {
    WithoutAppend(s, [x], x);
    WithoutAbsent(s, x);
    assert Without([x], x) == [] by {
      assert [x][1..] == [];
    }
  }

  /** Unticking keeps the order of what remains: the survivors of any front
      part of the selection stay ahead of the survivors of the rest. */
  lemma ToggleOffKeepsOrder(a: seq<int>, b: seq<int>, x: int)
    requires x in a + b
    ensures ToggleList(a + b, x) == Without(a, x) + Without(b, x)
  {
    WithoutAppend(a, b, x);
  }

  /** At most one copy of the toggled id after any toggle. */
  lemma ToggleNeverDuplicates(menu: MealBuckets<int>, meal: Meal, foodId: int)
    ensures multiset(ToggleSelection(menu, meal, foodId).Get(meal))[foodId] <= 1
  {
  }

  /** What the screen's lists hold once the menu for a day has been fetched:
      the entry objects the server returned, followed by ids ticked since. */
  datatype Selected = Loaded(entry: Admin.MenuEntry) | Picked(id: int)

  /** The toggle as written, on such a list: the membership test and the
      removal compare the number with each element, and an entry object
      never equals it, so fetched entries are neither found nor removed. */
  function ToggleAsWritten(s: seq<Selected>, x: int): (r: seq<Selected>)
    ensures Picked(x) in r <==> Picked(x) !in s
    ensures forall e: Selected :: e.Loaded? ==> (e in r <==> e in s)
    ensures forall y :: y != x ==> (Picked(y) in r <==> Picked(y) in s)
  {
    if Picked(x) in s then
      WithoutCounts(s, Picked(x));
      assert forall e :: e in Without(s, Picked(x)) <==> e in multiset(Without(s, Picked(x)));
      assert forall e :: e in s <==> e in multiset(s);
      Without(s, Picked(x))
    else s + [Picked(x)]
  }

  /** How `saveMenu` posts a list: an object is dropped by the server's
      `isNaN` filter, a number is kept. */
  function AsPosted(s: seq<Selected>): (r: seq<Admin.FoodIdValue>)
    ensures |r| == |s|
    ensures forall i :: 0 <= i < |s| ==> (Admin.IsValidId(r[i]) <==> s[i].Picked?)
    ensures forall i :: 0 <= i < |s| && s[i].Picked? ==> r[i] == Admin.Number(s[i].id)
  {
    MapSeq((e: Selected) => if e.Picked? then Admin.Number(e.id) else Admin.NotANumber, s)
  }

  /** The checkbox state as written: whether the list holds the item's id.
      A list of fetched entries alone never shows any item ticked. */
  function IsCheckedAsWritten(s: seq<Selected>, x: int): (checked: bool)
    ensures (forall i :: 0 <= i < |s| ==> s[i].Loaded?) ==> !checked
  {
    Picked(x) in s
  }

  /** The menu a save posts to as written: the `menu_id` of the list's first
      element, or menu 1 when that is missing (an empty list, or a ticked id,
      which has no `menu_id`) or 0. */
  function SaveTargetAsWritten(s: seq<Selected>): (id: nat)
    ensures id != 0
    ensures s != [] && s[0].Loaded? && s[0].entry.menuId != 0 ==> id == s[0].entry.menuId
    ensures s == [] || s[0].Picked? ==> id == 1
  {
    if s != [] && s[0].Loaded? && s[0].entry.menuId != 0 then s[0].entry.menuId else 1
  }

  /** As written, an item that came with the fetched menu shows unticked,
      and clicking it ticks it a second time instead of removing it; ticking
      another item and saving keeps only the hand-ticked id, so the fetched
      item is deleted from its menu. A meal fetched empty saves to menu 1. */
  lemma ToggleAsWrittenLosesLoadedItems(items: Admin.MenuItems)
    ensures var e := Admin.MenuEntry(3, Some("Idli"), Some(40), 7);
      var ticked := ToggleAsWritten([Loaded(e)], 5);
      && !IsCheckedAsWritten([Loaded(e)], 3)
      && ToggleAsWritten([Loaded(e)], 3) == [Loaded(e), Picked(3)]
      && SaveTargetAsWritten(ticked) == 7
      && Admin.UpdateMenuItems(items, ToDecimal(7), Some(AsPosted(ticked))).1[ToDecimal(7)] == [5]
    ensures SaveTargetAsWritten(ToggleAsWritten([], 5)) == 1
  {
    var e := Admin.MenuEntry(3, Some("Idli"), Some(40), 7);
    assert ToggleAsWritten([Loaded(e)], 5) == [Loaded(e), Picked(5)];
    assert ToggleAsWritten([], 5) == [Picked(5)];
    var posted := AsPosted([Loaded(e), Picked(5)]);
    assert posted == [Admin.NotANumber, Admin.Number(5)];
    assert Filter(Admin.IsValidId, posted) == [Admin.Number(5)] by {
      assert posted[1..] == [Admin.Number(5)];
      assert posted[1..][1..] == [];
    }
  }

  /** One meal's state on the screen as intended: the menu id the fetched
      entries came with, if any, and the ticked food ids. */
  datatype Selection = Selection(menuId: Option<nat>, ids: seq<int>)

  /** Loading a fetched meal: its entries' food ids, one per entry and in
      order, and the menu id of the entries. */
  function LoadSelection(entries: seq<Admin.MenuEntry>): (sel: Selection)
    ensures |sel.ids| == |entries|
    ensures forall i :: 0 <= i < |entries| ==> sel.ids[i] == entries[i].foodId
    ensures sel.menuId.Some? <==> entries != []
    ensures entries != [] ==> sel.menuId.value == entries[0].menuId
  {
    Selection(if entries == [] then None else Some(entries[0].menuId),
              MapSeq((e: Admin.MenuEntry) => e.foodId, entries))
  }

  /** The menu a save posts to: the known menu id, with the same fallback to
      menu 1 as the screen when there is none or it is 0. */
  function SaveTarget(sel: Selection): (id: nat)
    ensures id != 0
    ensures sel.menuId.Some? && sel.menuId.value != 0 ==> id == sel.menuId.value
    ensures sel.menuId.None? ==> id == 1
  {
    if sel.menuId.Some? && sel.menuId.value != 0 then sel.menuId.value else 1
  }

  /** Every element of an all-numbers list survives the server's filter. */
  lemma PostedIdsAllValid(ids: seq<int>)
    ensures ValidFoodIdsOf(ids) == ids
  {
    var posted := MapSeq((id: int) => Admin.Number(id), ids);
    FilterAll(Admin.IsValidId, posted);
    var r := Admin.ValidFoodIds(posted);
    assert |r| == |ids|;
    forall i | 0 <= i < |ids| ensures r[i] == ids[i] {
      assert Admin.Number(r[i]) == posted[i];
    }
  }

  function ValidFoodIdsOf(ids: seq<int>): seq<int>
  {
    Admin.ValidFoodIds(MapSeq((id: int) => Admin.Number(id), ids))
  }

  /** Saving a meal posts its ids to its menu: that menu's items become the
      ids, in order, and every other menu is untouched. */
  function Save(items: Admin.MenuItems, sel: Selection): (r: Admin.MenuItems)
    ensures ToDecimal(SaveTarget(sel)) in r && r[ToDecimal(SaveTarget(sel))] == sel.ids
    ensures forall k :: k in items && k != ToDecimal(SaveTarget(sel)) ==> k in r && r[k] == items[k]
  {
    PostedIdsAllValid(sel.ids);
    Admin.UpdateMenuItems(items, ToDecimal(SaveTarget(sel)), Some(MapSeq((id: int) => Admin.Number(id), sel.ids))).1
  }

  /** With ids, unticking a fetched item removes it; ticking a new item and
      saving writes every fetched id plus the new one, at the end, to the
      menu the entries came from. */
  lemma ToggleLoadedThenSave(entries: seq<Admin.MenuEntry>, x: int, items: Admin.MenuItems)
    ensures forall i :: 0 <= i < |entries| ==>
              entries[i].foodId !in ToggleList(LoadSelection(entries).ids, entries[i].foodId)
    ensures var sel := LoadSelection(entries);
      x !in sel.ids ==>
        var saved := Save(items, sel.(ids := ToggleList(sel.ids, x)));
        var target := ToDecimal(SaveTarget(sel));
        && saved[target] == sel.ids + [x]
        && (entries != [] && entries[0].menuId != 0 ==> target == ToDecimal(entries[0].menuId))
  {
    var ids := LoadSelection(entries).ids;
    forall i | 0 <= i < |entries|
      ensures entries[i].foodId !in ToggleList(ids, entries[i].foodId)
    {
      assert entries[i].foodId in ids by { assert ids[i] == entries[i].foodId; }
    }
  }
}

=== FILE: weekly_menu.dfy ===
/** `getWeeklyMenu` of the menu controller: the rows of the weekly-menu query
    grouped first by day of week and then by meal. */
module WeeklyMenu {
  import opened Common

  /** One row of the weekly-menu query. */
  datatype MenuRow = MenuRow(day: string, mealType: Meal, item: string, price: int, imageUrl: Option<string>)

  datatype MenuItem = MenuItem(name: string, price: int, imageUrl: Option<string>)

  /** An item's image URL: a missing or empty URL becomes null, any other
      URL is copied as it is. */
  function ItemOf(row: MenuRow): (item: MenuItem)
    ensures item.name == row.item && item.price == row.price
    ensures item.imageUrl.None? <==> row.imageUrl.None? || row.imageUrl.value == ""
    ensures item.imageUrl.Some? ==> item.imageUrl == row.imageUrl
  {
    MenuItem(row.item, row.price, if row.imageUrl.Some? && row.imageUrl.value != "" then row.imageUrl else None)
  }

  type Menu = map<string, MealBuckets<MenuItem>>

  /** The body of the `forEach`: create the day's three empty lists on its
      first row, then append the item to its meal's list. */
  function AddRow(menu: Menu, row: MenuRow): (after: Menu)
    ensures after.Keys == menu.Keys + {row.day}
    ensures forall d :: d in menu && d != row.day ==> after[d] == menu[d]
    ensures after[row.day].Get(row.mealType) ==
              (if row.day in menu then menu[row.day].Get(row.mealType) else []) + [ItemOf(row)]
    ensures forall m :: m != row.mealType ==>
              after[row.day].Get(m) == (if row.day in menu then menu[row.day].Get(m) else [])
  {
    var day := if row.day in menu then menu[row.day] else EmptyBuckets();
    menu[row.day := day.Append(row.mealType, ItemOf(row))]
  }

  function InSlot(d: string, m: Meal): MenuRow -> bool
  {
    (row: MenuRow) => row.day == d && row.mealType == m
  }

  function DaysOf(rows: seq<MenuRow>): set<string>
  {
    set row | row in rows :: row.day
  }

  /** Days seen after one more row. */
  lemma DaysOfSnoc(prefix: seq<MenuRow>, last: MenuRow)
    ensures DaysOf(prefix + [last]) == DaysOf(prefix) + {last.day}
  {
    assert forall row :: row in prefix + [last] <==> row in prefix || row == last;
  }

  /** Grouping keeps the slot-by-slot property when one more row arrives. */
  lemma AddRowKeepsSlots(before: Menu, prefix: seq<MenuRow>, last: MenuRow)
    requires before.Keys == DaysOf(prefix)
    requires forall d, m :: d in before ==> before[d].Get(m) == MapSeq(ItemOf, Filter(InSlot(d, m), prefix))
    ensures forall d, m :: d in AddRow(before, last) ==>
              AddRow(before, last)[d].Get(m) == MapSeq(ItemOf, Filter(InSlot(d, m), prefix + [last]))
  {
    var after := AddRow(before, last);
    forall d, m | d in after
      ensures after[d].Get(m) == MapSeq(ItemOf, Filter(InSlot(d, m), prefix + [last]))
    {
      FilterSnoc(InSlot(d, m), prefix, last);
      var extra := if InSlot(d, m)(last) then [last] else [];
      MapSeqAppend(ItemOf, Filter(InSlot(d, m), prefix), extra);
      if d !in before {
        forall i | 0 <= i < |prefix| ensures !InSlot(d, m)(prefix[i]) {
          assert prefix[i].day in DaysOf(prefix);
        }
        FilterNone(InSlot(d, m), prefix);
      }
    }
  }

  /** `getWeeklyMenu`: a day is a key exactly when some row has it, and each
      of its lists holds the items of that day's rows for that meal, in row
      order (so a meal without rows keeps its initial empty list). */
  function GetWeeklyMenu(rows: seq<MenuRow>): (menu: Menu)
    ensures menu.Keys == DaysOf(rows)
    ensures forall d, m :: d in menu ==> menu[d].Get(m) == MapSeq(ItemOf, Filter(InSlot(d, m), rows))
    decreases |rows|
  {
    if rows == [] then map[]
    else
      var n := |rows| - 1;
      var prefix, last := rows[..n], rows[n];
      assert rows == prefix + [last];
      var before := GetWeeklyMenu(prefix);
      DaysOfSnoc(prefix, last);
      AddRowKeepsSlots(before, prefix, last);
      AddRow(before, last)
  }

  /** Number of items in one day's three lists. */
  function DayCount(b: MealBuckets<MenuItem>): nat
  {
    |b.breakfast| + |b.lunch| + |b.dinner|
  }

  /** Number of items in the whole menu. */
  ghost function ItemCount(menu: Menu): nat
    decreases |menu|
  {
    if |menu| == 0 then 0
    else
      var d :| d in menu;
      DayCount(menu[d]) + ItemCount(menu - {d})
  }

  /** The count can be taken apart at any day, not only the chosen one. */
  lemma {:induction false} ItemCountAt(menu: Menu, d: string)
    requires d in menu
    ensures ItemCount(menu) == DayCount(menu[d]) + ItemCount(menu - {d})
    decreases |menu|
  {
    var d' :| d' in menu && ItemCount(menu) == DayCount(menu[d']) + ItemCount(menu - {d'});
    if d' != d {
      var rest, rest2 := menu - {d'}, menu - {d};
      assert d in rest && rest[d] == menu[d];
      assert d' in rest2 && rest2[d'] == menu[d'];
      assert rest.Keys == menu.Keys - {d'} && rest2.Keys == menu.Keys - {d};
      ItemCountAt(rest, d);
      ItemCountAt(rest2, d');
      assert rest - {d} == rest2 - {d'};
    }
  }

  /** Appending an item to one of a day's lists adds one to the day's count. */
  lemma AppendCountsOne(b: MealBuckets<MenuItem>, m: Meal, item: MenuItem)
    ensures DayCount(b.Append(m, item)) == DayCount(b) + 1
  {
    match m
    case Breakfast => assert b.Append(m, item).breakfast == b.breakfast + [item];
    case Lunch => assert b.Append(m, item).lunch == b.lunch + [item];
    case Dinner => assert b.Append(m, item).dinner == b.dinner + [item];
  }

  lemma AddRowCountsOne(menu: Menu, row: MenuRow)
    ensures ItemCount(AddRow(menu, row)) == ItemCount(menu) + 1
  {
    var after := AddRow(menu, row);
    var day := if row.day in menu then menu[row.day] else EmptyBuckets();
    assert after == menu[row.day := day.Append(row.mealType, ItemOf(row))];
    AppendCountsOne(day, row.mealType, ItemOf(row));
    UpdateCount(menu, row.day, day.Append(row.mealType, ItemOf(row)));
    if row.day in menu {
      ItemCountAt(menu, row.day);
    } else {
      assert menu - {row.day} == menu;
    }
  }

  /** Setting one day's lists changes the count by that day's difference. */
  lemma UpdateCount(menu: Menu, d: string, b: MealBuckets<MenuItem>)
    ensures ItemCount(menu[d := b]) == DayCount(b) + ItemCount(menu - {d})
  {
    var after := menu[d := b];
    ItemCountAt(after, d);
    assert after - {d} == menu - {d};
  }

  /** Every row lands in exactly one list: the menu holds as many items as
      the query returned rows. */
  lemma {:induction false} WeeklyMenuCountsEveryRow(rows: seq<MenuRow>)
    ensures ItemCount(GetWeeklyMenu(rows)) == |rows|
    decreases |rows|
  {
    if rows != [] {
      var n := |rows| - 1;
      WeeklyMenuCountsEveryRow(rows[..n]);
      AddRowCountsOne(GetWeeklyMenu(rows[..n]), rows[n]);
    }
  }
}
